=== FILE: README.md ===
# Knights pallet, modelled in Dafny

A model of the knights registry of the `substrate-knights` runtime
(`pallets/knights/src/lib.rs`). The pallet keeps six storage items:

- `KnightCount` (u64);
- `LatestKnightId`;
- `Knights` (id → `Knight` record);
- the forward index `KnightToOwner` (id → account);
- the reverse index `OwnerToKnights` (account → `Vec` of ids);
- `OwnerToKnightCount` (account → u64).

Five signed calls change the storage: `create_knight`, `transfer_knight`, `set_price`,
`buy_knight` and `knight_squire`. All of them but `set_price` go through
two private helpers, `_mint` and `_transfer_knight`.

The project has six modules:

- `KnightTypes` (`knight_types.dfy`) holds the record, the error enum, the
  outcome of a call, and Rust's `checked_add` and `checked_sub`. An outcome
  is `Ok`; `Err(e)` for a module error, which is a variant of the pallet's
  `Error<T>` or, as `PaymentFailed`, the currency pallet's error; `Other(e)`
  for a `DispatchError::Other` whose string is either one of `buy_knight`'s two
  `ensure!` messages or the name of a pallet error returned by `_mint`; or
  `Panic(reason)` for the two `expect`s.
- `OwnedList` (`owned_list.dfy`) holds the per-owner `Vec<KnightIndex>` and
  the two `Vec` operations the pallet uses. Removal is `binary_search_by`
  followed by `remove`; the search is Rust's core-library algorithm, so it is
  exact on sorted lists and can miss on unsorted ones. Adding is `append`.
- `Breeding` (`breeding.dfy`) holds the DNA crossing of `knight_squire`. It
  has a specification function and a method that fills a 16-byte array in
  place, as the source's loop does.
- `RegistrySpec` (`registry_spec.dfy`) is the pallet as a state machine. It
  has one function per helper and per call, each returning the outcome and
  the storage the call leaves. Both helpers follow the source's order of
  checks and writes, including the writes they make before a later check
  fails. The calls wrap the helpers in `Atomic`: the host discards every
  write of a call that fails or panics. `_mint` returns a
  `Result<(), &'static str>`, so its errors reach `create_knight` and
  `knight_squire` as names: `MintCall` reports them as `Other(e)`, while the
  calls' own checks report `Err(e)`.
- `RegistryProofs` (`registry_proofs.dfy`) holds what each call guarantees:
  - the error it reports and when;
  - what a successful call changes and leaves alone;
  - that every call keeps the storage invariant `Inv`.

  `Inv` says:
  - records sit under their own ids, no id exceeds `LatestKnightId`, and
    `KnightCount` counts the records;
  - the forward and reverse indexes agree, and each list holds distinct ids;
  - each owner's count is the length of that owner's list.
- `KnightPallet` (`pallet.dfy`) is the pallet as the runtime runs it. The
  storage items are the fields of a class, and every helper and call is a
  method that updates them one write at a time. Each method is proved to
  return exactly the outcome, and leave exactly the storage, that its
  `RegistrySpec` function describes. The calls also keep `Inv`.
- `Scenarios` (`scenarios.dfy`) holds concrete runs from fresh storage that
  follow the pallet's test cases.

Sortedness of the owners' lists is not part of `Inv`, because the pallet
does not keep it. Minting keeps every list sorted, since a new id is larger
than all earlier ones. A transfer appends the received id to the receiver's
list, so the receiver's list can fall out of order. Once it has, the
`expect` after the binary search can panic for a rightful owner.
`Scenarios.OutOfOrderTransferPanics` is a concrete run that shows this:

1. `b` creates knight 1 and `a` creates knight 2.
2. `b` gives knight 1 to `a`, whose list becomes `[2, 1]`.
3. `a`'s transfer of knight 2 panics, although the storage satisfies `Inv`.

The lemmas for `transfer_knight` and `buy_knight` state the outcome in both
cases. It is the binary search's answer on any list, and success whenever
the sender's list is sorted.

The randomness source, the blake2 hash behind a new knight's DNA and the
currency transfer of `buy_knight` are parameters:

- `random(seed)` gives the 32-byte hash;
- `dnaOf(newCount, who)` gives 16 DNA bytes;
- `currency(buyer, owner, price)` reports whether the payment went through.

## Model

| member | source | states |
|---|---|---|
| Breeding.Crossed | pallets/knights/src/lib.rs:208-219 | every byte of the child's DNA is the same-position byte of one of the two parents |
| Breeding.MixDna | pallets/knights/src/lib.rs:208-219 | the in-place loop over the zipped DNA and hash leaves byte `i` from parent 2 when hash byte `i` is even, from parent 1 otherwise |
| Breeding.CrossedSame | pallets/knights/src/lib.rs:208-219 | crossing a DNA with itself gives it back |
| Breeding.CrossedSwap | pallets/knights/src/lib.rs:216-218 | swapping the parents swaps which parent each byte comes from |
| Breeding.CrossedExtremes | pallets/knights/src/lib.rs:216-218 | an all-even hash yields parent 2's DNA, an all-odd hash parent 1's |
| OwnedList.BinarySearch | pallets/knights/src/lib.rs:445-447 | whatever the order of the list, a reported position holds the searched id |
| OwnedList.SearchBetween | pallets/knights/src/lib.rs:445-447 | a position reported for a window lies in the window and holds the id |
| OwnedList.SearchBetweenComplete | pallets/knights/src/lib.rs:445-447 | on a sorted list the search finds every id present in the window, at its index |
| OwnedList.BinarySearchSorted | pallets/knights/src/lib.rs:445-447 | on a sorted list the search succeeds exactly when the id is present |
| OwnedList.UnsortedSearchMisses | pallets/knights/src/lib.rs:445-447 | on the unsorted list [2, 1] the search misses id 2, which is present |
| OwnedList.RemoveAtExact | pallets/knights/src/lib.rs:449 | `remove` at the found position leaves exactly the other ids, once each, one fewer, and keeps a sorted list sorted |
| OwnedList.AppendFresh | pallets/knights/src/lib.rs:452 | appending an absent id keeps ids distinct, and keeps the list sorted when the id exceeds every listed id |
| OwnedList.DistinctWithin | pallets/knights/src/lib.rs:278-284 | a list of distinct ids drawn from a set is no longer than the set |
| KnightTypes.CheckedAdd | pallets/knights/src/lib.rs:399-401 | `checked_add` fails exactly when the sum exceeds the type's maximum, and otherwise gives the sum |
| KnightTypes.CheckedSub | pallets/knights/src/lib.rs:458-460 | `checked_sub` fails exactly when the result would be negative, and otherwise gives the difference |
| OwnedList.RemoveAt | pallets/knights/src/lib.rs:449 | `Vec::remove` drops the element at the position and shifts the tail left by one, so the list is one shorter |
| RegistrySpec.Mint | pallets/knights/src/lib.rs:392-419 | `_mint` returns `Ok`, `KnightCountOverflow` or `OwnerToKnightCountOverflow`; `KnightCountOverflow` exactly when the count is at the u64 maximum, with nothing written; on success the global count, the owner's list and the owner's count each grow by one |
| RegistrySpec.TransferInternal | pallets/knights/src/lib.rs:421-472 | `_transfer_knight` never touches records or counters; `KnightAlreadyExists` exactly when the receiver lists the id, with nothing written; past that check the forward map names the receiver; success needs distinct accounts and moves one id and one count from sender to receiver |
| RegistrySpec.Atomic | pallets/knights/src/lib.rs:139-143 | the outcome is kept; a call that does not succeed leaves the storage it found, a successful one keeps its writes |
| RegistrySpec.StrError | pallets/knights/src/lib.rs:395 | `?` on a `&'static str` result never yields a pallet error: `Ok` stays `Ok`, a pallet error becomes `DispatchError::Other` with its name |
| RegistrySpec.MintCall | pallets/knights/src/lib.rs:332 | `Self::_mint(..)?` in a call: `_mint`'s errors reported as `DispatchError::Other`, nothing written on failure, and `_mint`'s storage on success |
| RegistrySpec.Expect | pallets/knights/src/lib.rs:155 | `expect` never yields an error: `Ok` stays `Ok`, an error becomes a panic carrying it, a panic stays |
| RegistrySpec.TransferKnight | pallets/knights/src/lib.rs:145-158 | a failed call changes nothing; `KnightNotFound` exactly when the id has no owner; success requires the caller to own the id and a different receiver, keeps the records and points the id at the receiver |
| RegistrySpec.SetPrice | pallets/knights/src/lib.rs:161-180 | never panics; a failed call changes nothing; success requires the caller to own the id, sets that record's price and leaves the indexes and counts alone |
| RegistrySpec.BuyKnight | pallets/knights/src/lib.rs:248-295 | a failed call changes nothing; the "not for sale" `DispatchError::Other` exactly when the record's price is 0; success requires an owner other than the buyer and a payment of the price that went through, resets the price to 0 and points the id at the buyer |
| RegistrySpec.CreateKnight | pallets/knights/src/lib.rs:300-335 | never panics; a `DispatchError::Other` outcome is the failure of `_mint` on the new record, passed through `?`; a failed call changes nothing; success stores a record of generation 1 under the previously unused id `LatestKnightId + 1`, owned by the caller, and raises the count and latest id by one |
| RegistrySpec.KnightSquire | pallets/knights/src/lib.rs:183-245 | never panics; a `DispatchError::Other` outcome happens only with both parents present and is the failure of `_mint` on the squire record, passed through `?`; a failed call changes nothing; success needs both parents, stores the squire record under the previously unused next id, owned by the caller, and changes no other record |
| RegistrySpec.Squire | pallets/knights/src/lib.rs:201-234 | the child has the next id, the squire's name and parent 1's generation plus one, and each DNA byte is the same-position byte of one of the parents |
| KnightPallet.Pallet.Rollback | pallets/knights/src/lib.rs:139-143 | the storage is restored to exactly the given state |
| RegistryProofs.EmptyInv | pallets/knights/src/lib.rs:75-106 | storage with every item at its default satisfies the invariant, with all lists sorted |
| RegistryProofs.OwnershipIndexExact | pallets/knights/src/lib.rs:92-101 | under the invariant, an id is in an owner's list exactly when the forward map names that owner |
| RegistryProofs.OwnerCountBounded | pallets/knights/src/lib.rs:278-284 | an owner's count never exceeds the global count, so it cannot overflow first |
| RegistryProofs.ReceiverRoom | pallets/knights/src/lib.rs:282-284 | a receiver who lacks the moving knight holds fewer knights than exist, so its count cannot overflow |
| RegistryProofs.FreshId | pallets/knights/src/lib.rs:313-321 | an id above `LatestKnightId` has no record, no owner, and is above every listed id |
| RegistryProofs.FreshIdAt | pallets/knights/src/lib.rs:313-321 | a listed id has a record and lies below any id not yet issued |
| RegistryProofs.MintSteps | pallets/knights/src/lib.rs:392-419 | `_mint` fails with `KnightCountOverflow` before any write, and with `OwnerToKnightCountOverflow` after the five writes of lines 402-407; on success the count, record, owner, list, latest id and owner count are set and no other owner changes |
| RegistryProofs.MintRoom | pallets/knights/src/lib.rs:398-414 | when the owner's count is within the global count, `_mint` succeeds exactly when the global count has room and then makes all six writes |
| RegistryProofs.MintEffect | pallets/knights/src/lib.rs:398-414 | under the invariant `_mint` never fails on the owner's count, succeeds exactly when the global count has room, and then makes all six writes |
| RegistryProofs.AddedRecords | pallets/knights/src/lib.rs:402-407 | adding a record under a new highest id keeps records keyed and `KnightCount` equal to the number of records |
| RegistryProofs.AddedIndex | pallets/knights/src/lib.rs:404-406 | the three writes of a mint keep the forward and reverse index consistent |
| RegistryProofs.AddedNoDuplicates | pallets/knights/src/lib.rs:406 | appending the new id keeps every list free of duplicates |
| RegistryProofs.AddedReverse | pallets/knights/src/lib.rs:405-406 | after a mint every listed id is owned, per the forward map, by the list's owner |
| RegistryProofs.AddedForward | pallets/knights/src/lib.rs:404-406 | after a mint every record has an owner and is in that owner's list |
| RegistryProofs.AddedSorted | pallets/knights/src/lib.rs:406-407 | a mint keeps every sorted list sorted, since the new id is the largest |
| RegistryProofs.AddedCounts | pallets/knights/src/lib.rs:406-414 | a mint keeps each owner's count equal to the length of that owner's list |
| RegistryProofs.AddedKeepsInv | pallets/knights/src/lib.rs:402-414 | the six writes of a mint under a new highest id keep the invariant and sortedness |
| RegistryProofs.MintKeepsInv | pallets/knights/src/lib.rs:392-419 | a successful `_mint` of an id above every issued one keeps the invariant and keeps sorted lists sorted |
| RegistryProofs.TransferInternalSteps | pallets/knights/src/lib.rs:421-472 | `_transfer_knight` returns `KnightAlreadyExists` exactly when the receiver lists the id, before any write; it panics exactly when the search misses, after rewriting the forward map; past the search it underflows exactly when the sender's count is 0, leaving the lists already rewritten, and with the sender's count at least 1 it overflows exactly when the receiver's count is at the u64 maximum; records and counters never change |
| RegistryProofs.TransferInternalFound | pallets/knights/src/lib.rs:439-467 | a found position and room in both counts make `_transfer_knight` succeed with exactly the move from that position |
| RegistryProofs.MovedLists | pallets/knights/src/lib.rs:443-467 | a move removes the id from the sender's list, appends it to the receiver's, moves both counts by one and leaves every other owner unchanged |
| RegistryProofs.MovedFromList | pallets/knights/src/lib.rs:443-450 | after a move the sender lists exactly its former ids other than the moved one |
| RegistryProofs.MovedNoDuplicates | pallets/knights/src/lib.rs:449-452 | a move keeps every list free of duplicates |
| RegistryProofs.MovedReverse | pallets/knights/src/lib.rs:439-452 | after a move every listed id is owned, per the forward map, by the list's owner |
| RegistryProofs.MovedForward | pallets/knights/src/lib.rs:439-452 | after a move every record has an owner and is in that owner's list |
| RegistryProofs.MovedCounts | pallets/knights/src/lib.rs:449-467 | a move keeps each owner's count equal to the length of that owner's list |
| RegistryProofs.MovedRecords | pallets/knights/src/lib.rs:439-467 | a move leaves the records and counters as they were |
| RegistryProofs.MovedKeepsInv | pallets/knights/src/lib.rs:439-467 | a move between two different owners keeps the invariant |
| RegistryProofs.TransferInternalEffect | pallets/knights/src/lib.rs:421-472 | under the invariant, for the owner: `KnightAlreadyExists` exactly when sending to oneself; otherwise success exactly when the search finds the id, always when the sender's list is sorted, and a panic on a miss; never a count error; on success the id belongs to `to`, has left the sender's list and ends the receiver's, both counts move by one, no record and no other owner changes |
| RegistryProofs.TransferInternalKeepsInv | pallets/knights/src/lib.rs:439-467 | a successful `_transfer_knight` by the owner keeps the invariant |
| RegistryProofs.TransferKnightSteps | pallets/knights/src/lib.rs:145-158 | on any storage: `KnightNotFound` exactly when the id has no owner, `NotRightfulOwner` exactly when the caller is not the owner; for the owner the outcome is `_transfer_knight`'s with errors turned into panics; any failure changes nothing and success leaves `_transfer_knight`'s storage |
| RegistryProofs.TransferKnightEffect | pallets/knights/src/lib.rs:145-158 | `KnightNotFound` exactly when the id has no owner, `NotRightfulOwner` exactly when the caller is not the owner; a panic when sending to oneself or when the search misses; success whenever the caller's list is sorted; any failure changes nothing; success moves the id as `_transfer_knight` does |
| RegistryProofs.TransferKnightKeepsInv | pallets/knights/src/lib.rs:145-158 | `transfer_knight` keeps the invariant whatever its outcome |
| RegistryProofs.PriceUpdateSameIndex | pallets/knights/src/lib.rs:173-175 | rewriting a record's price changes nothing the invariant looks at |
| RegistryProofs.SameIndexRecords | pallets/knights/src/lib.rs:175 | storage differing only in record contents keeps records keyed |
| RegistryProofs.SameIndexIndex | pallets/knights/src/lib.rs:175 | storage differing only in record contents keeps the index consistent |
| RegistryProofs.SameIndexCounts | pallets/knights/src/lib.rs:175 | storage differing only in record contents keeps counts matching |
| RegistryProofs.SameIndexKeepsInv | pallets/knights/src/lib.rs:175 | storage differing only in record contents keeps the invariant |
| RegistryProofs.PriceUpdateKeepsInv | pallets/knights/src/lib.rs:173-175 | rewriting one record's price keeps the invariant |
| RegistryProofs.SetPriceEffect | pallets/knights/src/lib.rs:161-180 | `KnightNotFound` exactly when the record or its owner is missing, `NotRightfulOwner` exactly when the caller is not the owner, success exactly for the owner; failures change nothing; success changes only the `price` field of that one record |
| RegistryProofs.SetPriceKeepsInv | pallets/knights/src/lib.rs:161-180 | `set_price` keeps the invariant whatever its outcome |
| RegistryProofs.BuyKnightSteps | pallets/knights/src/lib.rs:248-295 | on any storage, in source order: `KnightNotFound` for a missing record, the "not for sale" `DispatchError::Other` at price 0, `KnightNotFound` for a priced record without an owner, the "already own" `DispatchError::Other` when the buyer is the owner, the payment's failure; each changes nothing; past the payment the outcome is `_transfer_knight`'s under `expect`, and success leaves its storage with the price reset to 0 |
| RegistryProofs.BuyKnightEffect | pallets/knights/src/lib.rs:259-292 | under the invariant a paid purchase from a sorted seller list succeeds; success means the payment went through, the buyer owns and lists the knight, the seller no longer lists it, and the record changes only in its price, now 0 |
| RegistryProofs.BuyKnightPaid | pallets/knights/src/lib.rs:287-292 | a purchase that gets past the payment ends with `_transfer_knight`'s ownership change and the price reset to 0 |
| RegistryProofs.BuyKnightKeepsInv | pallets/knights/src/lib.rs:248-295 | `buy_knight` keeps the invariant whatever its outcome |
| RegistryProofs.CreateKnightChecks | pallets/knights/src/lib.rs:306-321 | on any storage: `KnightCountOverflow` exactly when the count is at the u64 maximum, then `KnightIdOverflow` exactly when the latest id is at the index maximum, then `KnightAlreadyExists` exactly when the next id already has a record, then `_mint`'s `OwnerToKnightCountOverflow`, as `DispatchError::Other`, exactly when the caller's count is at the u64 maximum; every failure changes nothing |
| RegistryProofs.CreateKnightSteps | pallets/knights/src/lib.rs:300-335 | when the next id is free, the call succeeds exactly when both counters have room; the record gets id `LatestKnightId + 1`, is appended to the caller's list, and both counts rise by one |
| RegistryProofs.CreateKnightEffect | pallets/knights/src/lib.rs:306-332 | under the invariant only the two overflow errors occur; a new knight has the next id, price 0, wealth 0, generation 1, the given name and the DNA hashed from the new count and caller; it ends the caller's list and both counts rise by one |
| RegistryProofs.CreateKnightKeepsInv | pallets/knights/src/lib.rs:300-335 | `create_knight` keeps the invariant and keeps every list sorted |
| RegistryProofs.KnightSquireChecks | pallets/knights/src/lib.rs:191-199 | on any storage: `KnightIdOverflow` exactly when the latest id is at the index maximum, `KnightAlreadyExists` exactly when the next id has a record; past the parent and generation checks, `_mint`'s `OwnerToKnightCountOverflow`, as `DispatchError::Other`, exactly when the caller's count is at the u64 maximum; every failure changes nothing |
| RegistryProofs.KnightSquireSteps | pallets/knights/src/lib.rs:183-245 | in source order: `KnightIdOverflow`, `KnightNotFound` for a missing parent, `KnightGenOverflow` for parent 1 at the u64 maximum, `_mint`'s `KnightCountOverflow` as `DispatchError::Other`; success mints the child, whose DNA byte `i` comes from parent 2 when hash byte `i` is even and from parent 1 otherwise, and every existing record is unchanged |
| RegistryProofs.KnightSquireEffect | pallets/knights/src/lib.rs:201-235 | under the invariant `KnightAlreadyExists` cannot occur; the child has the next id, parent 1's generation plus one, price and wealth 0, the squire's name, the crossed DNA, belongs to the caller; the parents' records stay as they were |
| RegistryProofs.KnightSquireMints | pallets/knights/src/lib.rs:221-235 | `knight_squire` either changes nothing or is one `_mint` of the child, whose generation fits a u64 |
| RegistryProofs.KnightSquireKeepsInv | pallets/knights/src/lib.rs:183-245 | `knight_squire` keeps the invariant whatever its outcome |
| KnightPallet.Pallet.constructor | pallets/knights/src/lib.rs:75-106 | fresh storage is the all-default state and satisfies the invariant |
| KnightPallet.Pallet.Mint | pallets/knights/src/lib.rs:392-419 | the step-by-step `_mint` returns and leaves exactly what `RegistrySpec.Mint` describes, partial writes included |
| KnightPallet.Pallet.TransferInternal | pallets/knights/src/lib.rs:421-472 | the step-by-step `_transfer_knight` returns and leaves exactly what `RegistrySpec.TransferInternal` describes, partial writes included |
| KnightPallet.Pallet.TransferKnight | pallets/knights/src/lib.rs:145-158 | the call matches `RegistrySpec.TransferKnight`, rollback included, and keeps the invariant |
| KnightPallet.Pallet.SetPrice | pallets/knights/src/lib.rs:161-180 | the call matches `RegistrySpec.SetPrice` and keeps the invariant |
| KnightPallet.Pallet.KnightSquire | pallets/knights/src/lib.rs:183-245 | the call, with the DNA loop of `Breeding.MixDna`, matches `RegistrySpec.KnightSquire` and keeps the invariant |
| KnightPallet.Pallet.BuyKnight | pallets/knights/src/lib.rs:248-295 | the call matches `RegistrySpec.BuyKnight`, rollback included, and keeps the invariant |
| KnightPallet.Pallet.CreateKnight | pallets/knights/src/lib.rs:300-335 | the call matches `RegistrySpec.CreateKnight` and keeps the invariant |
| Scenarios.ThreeCreatesInOrder | pallets/knights/src/tests.rs:158-194 | three creates by one account give ids 1, 2, 3, listed in that order, each under its name |
| Scenarios.FirstCreate | pallets/knights/src/tests.rs:8-26 | the first knight gets id 1, the creator's list is [1] and the creator's count is 1 |
| Scenarios.SecondCreate | pallets/knights/src/tests.rs:123-136 | a second create gives id 2, appended after 1, with a count of 2 |
| Scenarios.ThirdCreate | pallets/knights/src/tests.rs:158-194 | a third create gives id 3, appended after 1 and 2 |
| Scenarios.BuyAfterPricing | pallets/knights/src/tests.rs:29-66 | created, priced at 20 and bought with a payment that goes through: the buyer owns and lists the knight, the seller does not, and the price is 0 |
| Scenarios.BuySole | pallets/knights/src/tests.rs:41-47 | buying the only knight moves it to the buyer and resets its price |
| Scenarios.HandOverSole | pallets/knights/src/tests.rs:41-47 | moving the only knight leaves the seller an empty list and count 0 and the buyer [1] and count 1 |
| Scenarios.SoleFound | pallets/knights/src/tests.rs:41-47 | the search finds the only knight, so the move succeeds |
| Scenarios.SoleMoved | pallets/knights/src/tests.rs:41-47 | the storage the move of the only knight leaves, spelled out |
| Scenarios.BuyWithoutFunds | pallets/knights/src/tests.rs:69-85 | a purchase whose payment fails reports the payment failure and changes nothing |
| Scenarios.CallerChecks | pallets/knights/src/tests.rs:106-120 | a non-owner's price change and transfer are refused with `NotRightfulOwner`, and transferring a knight never created with `KnightNotFound`, all without change; this covers the tests at tests.rs:106-120, 248-261 and 263-271 |
| Scenarios.TransferOneOfTwo | pallets/knights/src/tests.rs:218-246 | an owner of two knights hands knight 1 over: each side then lists one knight and the receiver's count is 1 |
| Scenarios.TwoCreates | pallets/knights/src/tests.rs:218-228 | the storage after two creates by the same or by different accounts |
| Scenarios.TransferFirstOfTwo | pallets/knights/src/tests.rs:234-244 | moving knight 1 out of [1, 2] leaves [2] and gives the receiver [1] |
| Scenarios.FirstOfTwoFound | pallets/knights/src/tests.rs:234-244 | the search finds knight 1 at position 0 of [1, 2] |
| Scenarios.FirstOfTwoMoved | pallets/knights/src/tests.rs:234-244 | the storage that move leaves, spelled out |
| Scenarios.OutOfOrderTransferPanics | pallets/knights/src/lib.rs:443-452 | after `b` creates 1, `a` creates 2 and `b` gives 1 to `a`, the invariant holds and `a` lists [2, 1], yet `a`'s transfer of knight 2 panics and is rolled back |
| Scenarios.HandOverLower | pallets/knights/src/lib.rs:452 | handing id 1 to the holder of id 2 makes that holder's list [2, 1] |
| Scenarios.HandOverFound | pallets/knights/src/lib.rs:443-450 | the search finds id 1 in the giver's list [1] |
| Scenarios.HandOverMoved | pallets/knights/src/lib.rs:449-452 | the storage that hand-over leaves, spelled out |
| Scenarios.UnorderedOwnerPanics | pallets/knights/src/lib.rs:443-447 | on that storage the owner of knight 2 holds an unsorted list and the transfer of knight 2 panics with nothing changed |
| Scenarios.HandedOverConsistent | pallets/knights/src/lib.rs:75-106 | the storage after the hand-over satisfies the invariant |
| Scenarios.HandedOverRecords | pallets/knights/src/lib.rs:75-90 | its two records sit under their ids with u64 generations |
| Scenarios.HandedOverIndex | pallets/knights/src/lib.rs:92-101 | its forward and reverse indexes agree |
| Scenarios.HandedOverCounts | pallets/knights/src/lib.rs:99-106 | its counts equal its list lengths |

## Left out

- Events (`deposit_event`, lib.rs:108-119 and the calls to it) are not modelled; they change no storage the calls read.
- `ensure_signed` and origins: every call takes the signer as a plain account parameter. Weights are not modelled.
- The `Thing` storage item and the genesis build, which mints one knight at start-up (lib.rs:339-389), are not modelled. The constructor starts from all-default storage.
- The currency transfer is the parameter `currency(buyer, owner, price)`. Balances, the existential deposit and `KeepAlive` belong to the balances pallet, which is not part of this model.
- `T::RandomnessSource::random` and `blake2_128` are the parameters `random` and `dnaOf`. The hash functions themselves are not modelled, so the test claim that two knights with the same name and owner get different DNA is not stated.
- `T::KnightIndex` is any unsigned type of at least 32 bits; the model fixes it to u32 (`KNIGHT_INDEX_MAX`). `T::Balance` is unbounded, since the pallet does no arithmetic on balances.
- The host's transactional rollback is assumed: `RegistrySpec.Atomic` and `KnightPallet.Pallet.Rollback` restore the storage a failed or panicking call found. A panic is its own outcome rather than an aborted block.
- The `KnightTransferFailed` variant of the error enum is never raised by the pallet and has no counterpart in the model.
- OwnedList.BinarySearch follows `binary_search_by` as written from Rust 1.52 until its rewrite without the early return on equality. Which present id the search misses on an unsorted list, and so the panic condition of RegistryProofs.TransferInternalEffect and RegistryProofs.TransferKnightEffect on unsorted lists, is specific to that algorithm; the miss on `[2, 1]` is not.
- RegistrySpec.StrError keeps the pallet error behind a `DispatchError::Other` rather than the string itself; that string is the variant's name, so no information is lost. `buy_knight`'s two `ensure!` failures are `Other(NotForSale)` and `Other(AlreadyOwnsKnight)`; there the string is a message ("The knight you want to buy isn't for sale.", "You already own this Knight") rather than a variant name, and the model does not carry the text.
- The currency pallet's particular error (such as `InsufficientBalance` in the tests) is folded into one `PaymentFailed` error.
- RegistryProofs.TransferKnightEffect, RegistryProofs.BuyKnightEffect, RegistryProofs.CreateKnightEffect and RegistryProofs.KnightSquireEffect assume the invariant `Inv`. Without it, the `Steps` and `Checks` lemmas state the outcomes; `Inv` holds from the empty storage and every call keeps it.

=== FILE: breeding.dfy ===
/** How `knight_squire` derives a child's DNA from its two parents and a
    random hash. */
module Breeding {
  import opened KnightTypes

  /** The per-byte selection rule: byte `i` of the child is parent 2's byte
      when random byte `i` is even and parent 1's otherwise. */
  function Crossed(dna1: Dna, dna2: Dna, random: Hash256): (child: Dna)
    ensures forall i :: 0 <= i < DNA_LEN ==> child[i] == dna1[i] || child[i] == dna2[i]
  {
    seq(DNA_LEN, i requires 0 <= i < DNA_LEN => if random[i] % 2 == 0 then dna2[i] else dna1[i])
  }

  /** The loop of `knight_squire`: start from a copy of parent 1's DNA and,
      walking parent 2's DNA zipped with the random hash, overwrite the bytes
      whose random byte is even. */
  method MixDna(dna1: Dna, dna2: Dna, random: Hash256) returns (child: Dna)
    ensures child == Crossed(dna1, dna2, random)
    ensures forall i :: 0 <= i < DNA_LEN ==>
              child[i] == (if random[i] % 2 == 0 then dna2[i] else dna1[i])
  {
    var finalDna := new Byte[DNA_LEN](i requires 0 <= i < DNA_LEN => dna1[i]);
    // `zip` stops at the shorter of the two sequences: the 16 DNA bytes.
    var n := if |dna2| < |random| then |dna2| else |random|;
    var i := 0;
    while i < n
      invariant n == DNA_LEN && 0 <= i <= n
      invariant forall k :: 0 <= k < i ==> finalDna[k] == (if random[k] % 2 == 0 then dna2[k] else dna1[k])
      invariant forall k :: i <= k < DNA_LEN ==> finalDna[k] == dna1[k]
    {
      if random[i] % 2 == 0 {
        finalDna[i] := dna2[i];
      }
      i := i + 1;
    }
    child := finalDna[..];
  }

  /** Breeding a knight with a copy of itself reproduces its DNA. */
  lemma CrossedSame(dna: Dna, random: Hash256)
    ensures Crossed(dna, dna, random) == dna
  {
  }

  /** Swapping the parents swaps the source of every byte: each position takes
      one parent's byte in one order and the other parent's in the other. */
  lemma CrossedSwap(dna1: Dna, dna2: Dna, random: Hash256, i: nat)
    requires i < DNA_LEN
    ensures {Crossed(dna1, dna2, random)[i], Crossed(dna2, dna1, random)[i]} == {dna1[i], dna2[i]}
  {
  }

  /** An all-even hash yields parent 2's DNA and an all-odd hash parent 1's. */
  lemma CrossedExtremes(dna1: Dna, dna2: Dna, random: Hash256)
    ensures (forall i :: 0 <= i < DNA_LEN ==> random[i] % 2 == 0) ==> Crossed(dna1, dna2, random) == dna2
    ensures (forall i :: 0 <= i < DNA_LEN ==> random[i] % 2 == 1) ==> Crossed(dna1, dna2, random) == dna1
  {
  }
}

=== FILE: knight_types.dfy ===
/** Value types of the knights pallet: the Knight record, its DNA, the pallet's
    errors and the outcome of a dispatch. */
module KnightTypes {

  /** Accounts are opaque identities; the mock runtime uses u64. */
  type AccountId = nat

  /** `T::KnightIndex`; its width is fixed by `KNIGHT_INDEX_MAX`. */
  type KnightIndex = nat

  /** `T::Balance`; the pallet only stores and compares balances. */
  type Balance = nat

  type Byte = b: int | 0 <= b < 256

  const U64_MAX: nat := 0xFFFF_FFFF_FFFF_FFFF

  /** `T::KnightIndex` is any `AtLeast32BitUnsigned`; the model takes u32. */
  const KNIGHT_INDEX_MAX: nat := 0xFFFF_FFFF

  const DNA_LEN: nat := 16
  const HASH_LEN: nat := 32

  /** `[u8; 16]` */
  type Dna = s: seq<Byte> | |s| == DNA_LEN witness seq(16, _ => 0)

  /** An `H256` value produced by the randomness source. */
  type Hash256 = s: seq<Byte> | |s| == HASH_LEN witness seq(32, _ => 0)

  datatype Knight = Knight(
    id: KnightIndex,
    dna: Dna,
    name: seq<Byte>,
    wealth: Balance,
    price: Balance,
    gen: nat)

  /** The pallet's `Error<T>` enum, plus the two `ensure!` messages of
      `buy_knight` (which reach the caller as `DispatchError::Other`) and the
      error the currency pallet reports. */
  datatype Error =
    | KnightCountOverflow
    | KnightIdOverflow
    | OwnerToKnightCountOverflow
    | OwnerToKnightCountUnderflow
    | KnightNotFound
    | KnightAlreadyExists
    | NotRightfulOwner
    | KnightGenOverflow
    | NotForSale          // "The knight you want to buy isn't for sale."
    | AlreadyOwnsKnight   // "You already own this Knight"
    | PaymentFailed       // whatever the currency transfer reported

  /** Why a dispatch panicked instead of returning an error. */
  datatype PanicReason =
    | KnightMissingFromOwnerList  // the `expect` after `binary_search_by`
    | TransfersKnight(cause: Error) // the `expect` on `_transfer_knight`'s result

  /** How a call ends: `Ok`; `Err(e)`, a module error (this pallet's
      `Error<T>` variant, or the currency pallet's error as `PaymentFailed`);
      `Other(e)`, a `DispatchError::Other` whose string is `buy_knight`'s
      message `e` or the name of a pallet error that passed through `_mint`'s
      `&'static str` result; or a panic. */
  datatype Outcome = Ok | Err(error: Error) | Other(name: Error) | Panic(reason: PanicReason)

  datatype Option<T> = None | Some(value: T)

  /** Rust's `checked_add` on an unsigned type whose largest value is `max`. */
  function CheckedAdd(a: nat, b: nat, max: nat): (r: Option<nat>)
    ensures r.None? <==> a + b > max
    ensures r.Some? ==> r.value - b == a && r.value <= max
  {
    if a + b <= max then Some(a + b) else None
  }

  /** Rust's `checked_sub` on an unsigned type. */
  function CheckedSub(a: nat, b: nat): (r: Option<nat>)
    ensures r.None? <==> a < b
    ensures r.Some? ==> r.value + b == a
  {
    if a >= b then Some(a - b) else None
  }
}

=== FILE: owned_list.dfy ===
/** The per-owner list of knight ids (`OwnerToKnights` values, a `Vec<KnightIndex>`)
    and the two `Vec` operations the pallet applies to it: `binary_search_by`
    followed by `remove`, and `append`. */
module OwnedList {
  import opened KnightTypes

  /** Strictly ascending: what `binary_search_by` needs to be meaningful. */
  predicate Sorted(s: seq<KnightIndex>)
  {
    forall i, j :: 0 <= i < j < |s| ==> s[i] < s[j]
  }

  predicate NoDuplicates(s: seq<KnightIndex>)
  {
    forall i, j :: 0 <= i < j < |s| ==> s[i] != s[j]
  }

  /** `Vec::remove(pos)`: the element at `pos` goes and the tail shifts left by one. */
  function RemoveAt(s: seq<KnightIndex>, pos: nat): (r: seq<KnightIndex>)
    requires pos < |s|
    ensures |r| == |s| - 1
    ensures forall i :: 0 <= i < |r| ==> r[i] == (if i < pos then s[i] else s[i + 1])
  {
    s[..pos] + s[pos + 1..]
  }

  /** `s.binary_search_by(|probe| probe.cmp(&x))`: `Some(i)` for `Ok(i)`, `None`
      for `Err(_)`. The algorithm is the one of Rust's core library from release
      1.52 until `binary_search_by` was rewritten without the early return:
      halve `[left, right)` around `mid = left + size / 2`, return on equality. */
  function BinarySearch(s: seq<KnightIndex>, x: KnightIndex): (r: Option<nat>)
    ensures r.Some? ==> r.value < |s| && s[r.value] == x
  {
    SearchBetween(s, x, 0, |s|)
  }

  /** Whatever the order of `s`, a position the search reports lies in the
      window and holds `x`. */
  function SearchBetween(s: seq<KnightIndex>, x: KnightIndex, left: nat, right: nat): (r: Option<nat>)
    requires left <= right <= |s|
    ensures r.Some? ==> left <= r.value < right && s[r.value] == x
    decreases right - left
  {
    if left >= right then None
    else
      var mid := left + (right - left) / 2;
      if s[mid] < x then SearchBetween(s, x, mid + 1, right)
      else if s[mid] > x then SearchBetween(s, x, left, mid)
      else Some(mid)
  }

  /** On a sorted list the search finds every element that lies in the window. */
  lemma {:induction false} SearchBetweenComplete(s: seq<KnightIndex>, x: KnightIndex, left: nat, right: nat, k: nat)
    requires Sorted(s) && left <= k < right <= |s| && s[k] == x
    ensures SearchBetween(s, x, left, right) == Some(k)
    decreases right - left
  {
    var mid := left + (right - left) / 2;
    if s[mid] < x {
      SearchBetweenComplete(s, x, mid + 1, right, k);
    } else if s[mid] > x {
      SearchBetweenComplete(s, x, left, mid, k);
    }
  }

  /** The search is exact on a sorted list: it succeeds precisely when `x` is
      present (and then, by its contract, at the index of `x`). */
  lemma BinarySearchSorted(s: seq<KnightIndex>, x: KnightIndex)
    requires Sorted(s)
    ensures BinarySearch(s, x).Some? <==> x in s
  {
    if x in s {
      var k :| 0 <= k < |s| && s[k] == x;
      SearchBetweenComplete(s, x, 0, |s|, k);
    }
  }

  /** On an unsorted list an element that is present can be missed: the owner's
      list [2, 1] does not yield id 2. */
  lemma UnsortedSearchMisses()
    ensures 2 in [2, 1] && BinarySearch([2, 1], 2) == None
  {
    assert SearchBetween([2, 1], 2, 0, 2) == SearchBetween([2, 1], 2, 2, 2);
  }

  /** Removing the only occurrence of `x` leaves exactly the other ids, once
      each, and keeps a sorted list sorted. */
  lemma RemoveAtExact(s: seq<KnightIndex>, pos: nat)
    requires pos < |s| && NoDuplicates(s)
    ensures |RemoveAt(s, pos)| == |s| - 1
    ensures forall y: KnightIndex :: y in RemoveAt(s, pos) <==> y in s && y != s[pos]
    ensures NoDuplicates(RemoveAt(s, pos))
    ensures Sorted(s) ==> Sorted(RemoveAt(s, pos))
  {
    var r := RemoveAt(s, pos);
    forall y
      ensures y in r <==> y in s && y != s[pos]
    {
      if y in r {
        var i :| 0 <= i < |r| && r[i] == y;
        assert y == (if i < pos then s[i] else s[i + 1]);
      }
      if y in s && y != s[pos] {
        var j :| 0 <= j < |s| && s[j] == y;
        assert r[if j < pos then j else j - 1] == y;
      }
    }
  }

  /** `append` of an id the list does not hold keeps the ids distinct; it keeps
      the list sorted only when the id is larger than every id in it. */
  lemma AppendFresh(s: seq<KnightIndex>, x: KnightIndex)
    requires NoDuplicates(s) && x !in s
    ensures NoDuplicates(s + [x])
    ensures Sorted(s) && (forall y: KnightIndex :: y in s ==> y < x) ==> Sorted(s + [x])
  {
    assert forall i :: 0 <= i < |s| ==> (s + [x])[i] == s[i];
    assert forall i :: 0 <= i < |s| ==> s[i] in s;
  }

  /** A list of distinct ids drawn from `ids` is no longer than `ids` has members. */
  lemma {:induction false} DistinctWithin(s: seq<KnightIndex>, ids: set<KnightIndex>)
    requires NoDuplicates(s) && forall y: KnightIndex :: y in s ==> y in ids
    ensures |s| <= |ids|
  {
    if s != [] {
      var rest := ids - {s[0]};
      forall y | y in s[1..] ensures y in rest {
        var i :| 0 <= i < |s[1..]| && s[1..][i] == y;
        assert s[i + 1] == y && s[0] != s[i + 1];
      }
      assert NoDuplicates(s[1..]) by {
        forall i, j | 0 <= i < j < |s[1..]| ensures s[1..][i] != s[1..][j] {
          assert s[1..][i] == s[i + 1] && s[1..][j] == s[j + 1];
        }
      }
      DistinctWithin(s[1..], rest);
    }
  }
}

=== FILE: pallet.dfy ===
/** The knights pallet as the runtime executes it: the six storage items are
    fields, each dispatchable and each helper is a method that reads and
    writes them one step at a time, in the order `lib.rs` does. Every method
    is proved to leave exactly the storage, and return exactly the outcome,
    that its function in `RegistrySpec` describes; the dispatchables also
    keep the storage invariant. */
module KnightPallet {
  import opened KnightTypes
  import opened OwnedList
  import Breeding
  import Spec = RegistrySpec
  import Proofs = RegistryProofs

  class Pallet {
    var knightCount: nat
    var latestKnightId: KnightIndex
    var knights: map<KnightIndex, Knight>
    var knightToOwner: map<KnightIndex, AccountId>
    var ownerToKnights: map<AccountId, seq<KnightIndex>>
    var ownerToKnightCount: map<AccountId, nat>

    /** The storage as one value. */
    function State(): Spec.Storage
      reads this
    {
      Spec.Storage(knightCount, latestKnightId, knights, knightToOwner, ownerToKnights, ownerToKnightCount)
    }

    ghost predicate Valid()
      reads this
    {
      Spec.Inv(State())
    }

    /** Fresh chain state: every storage item at its default. */
    constructor()
      ensures State() == Spec.Empty() && Valid()
    {
      knightCount := 0;
      latestKnightId := 0;
      knights := map[];
      knightToOwner := map[];
      ownerToKnights := map[];
      ownerToKnightCount := map[];
      Proofs.EmptyInv();
    }

    /** The host discarding a failed call's writes. */
    method Rollback(pre: Spec.Storage)
      modifies this
      ensures State() == pre
    {
      knightCount := pre.knightCount;
      latestKnightId := pre.latestKnightId;
      knights := pre.knights;
      knightToOwner := pre.knightToOwner;
      ownerToKnights := pre.ownerToKnights;
      ownerToKnightCount := pre.ownerToKnightCount;
    }

    /** `_mint`: the global count is checked and written, then the record,
        its owner, the owner's list and the latest id, and only then the
        owner's count is checked and written. */
    method Mint(owner: AccountId, knight: Knight) returns (r: Outcome)
      modifies this
      ensures Spec.Step(r, State()) == Spec.Mint(old(State()), owner, knight)
    {
      var newCount := CheckedAdd(knightCount, 1, U64_MAX);
      if newCount.None? {
        return Err(KnightCountOverflow);
      }
      knightCount := newCount.value;
      knights := knights[knight.id := knight];
      knightToOwner := knightToOwner[knight.id := owner];
      ownerToKnights := ownerToKnights[owner := State().KnightsOf(owner) + [knight.id]];
      latestKnightId := knight.id;
      var ownerCount := CheckedAdd(State().CountOf(owner), 1, U64_MAX);
      if ownerCount.None? {
        return Err(OwnerToKnightCountOverflow);
      }
      ownerToKnightCount := ownerToKnightCount[owner := ownerCount.value];
      r := Ok;
    }

    /** `_transfer_knight`: the duplicate check, then the forward map, the
        removal from `from`'s list at the position the binary search reports
        (a miss panics), the append to `to`'s list, and the two counts. */
    method TransferInternal(id: KnightIndex, from: AccountId, to: AccountId) returns (r: Outcome)
      modifies this
      ensures Spec.Step(r, State()) == Spec.TransferInternal(old(State()), id, from, to)
    {
      if id in State().KnightsOf(to) {
        return Err(KnightAlreadyExists);
      }
      knightToOwner := knightToOwner[id := to];
      var ids := State().KnightsOf(from);
      var found := BinarySearch(ids, id);
      if found.None? {
        return Panic(KnightMissingFromOwnerList);
      }
      ownerToKnights := ownerToKnights[from := RemoveAt(ids, found.value)];
      ownerToKnights := ownerToKnights[to := State().KnightsOf(to) + [id]];
      var fromCount := CheckedSub(State().CountOf(from), 1);
      if fromCount.None? {
        return Err(OwnerToKnightCountUnderflow);
      }
      ownerToKnightCount := ownerToKnightCount[from := fromCount.value];
      var toCount := CheckedAdd(State().CountOf(to), 1, U64_MAX);
      if toCount.None? {
        return Err(OwnerToKnightCountOverflow);
      }
      ownerToKnightCount := ownerToKnightCount[to := toCount.value];
      r := Ok;
    }

    /** `transfer_knight` signed by `who`. */
    method TransferKnight(who: AccountId, id: KnightIndex, to: AccountId) returns (r: Outcome)
      requires Valid()
      modifies this
      ensures Spec.Step(r, State()) == Spec.TransferKnight(old(State()), who, id, to)
      ensures Valid()
    {
      if id !in knightToOwner {
        return Err(KnightNotFound);
      }
      if knightToOwner[id] != who {
        return Err(NotRightfulOwner);
      }
      var pre := State();
      var inner := TransferInternal(id, who, to);
      r := Spec.Expect(inner);
      if !r.Ok? {
        Rollback(pre);
      }
      Proofs.TransferKnightKeepsInv(pre, who, id, to);
    }

    /** `set_price` signed by `who`. */
    method SetPrice(who: AccountId, id: KnightIndex, price: Balance) returns (r: Outcome)
      requires Valid()
      modifies this
      ensures Spec.Step(r, State()) == Spec.SetPrice(old(State()), who, id, price)
      ensures Valid()
    {
      if id !in knights {
        return Err(KnightNotFound);
      }
      var knight := knights[id];
      if id !in knightToOwner {
        return Err(KnightNotFound);
      }
      if knightToOwner[id] != who {
        return Err(NotRightfulOwner);
      }
      var pre := State();
      knights := knights[id := knight.(price := price)];
      r := Ok;
      assert State() == pre.(knights := pre.knights[id := pre.knights[id].(price := price)]);
      Proofs.PriceUpdateKeepsInv(pre, id, price);
    }

    /** `knight_squire` signed by `who`; the child's DNA comes from the byte
        loop of `Breeding.MixDna`. */
    method KnightSquire(who: AccountId, squireName: seq<Byte>, id1: KnightIndex, id2: KnightIndex,
                        random: seq<Byte> -> Hash256) returns (r: Outcome)
      requires Valid()
      modifies this
      ensures Spec.Step(r, State()) == Spec.KnightSquire(old(State()), who, squireName, id1, id2, random)
      ensures Valid()
    {
      var next := CheckedAdd(latestKnightId, 1, KNIGHT_INDEX_MAX);
      if next.None? {
        return Err(KnightIdOverflow);
      }
      if next.value in knights {
        return Err(KnightAlreadyExists);
      }
      if id1 !in knights || id2 !in knights {
        return Err(KnightNotFound);
      }
      var knight1, knight2 := knights[id1], knights[id2];
      // The names are joined in a local copy; the stored parents keep theirs.
      var seed := knight1.name + knight2.name;
      var dna := Breeding.MixDna(knight1.dna, knight2.dna, random(seed));
      var gen := CheckedAdd(knight1.gen, 1, U64_MAX);
      if gen.None? {
        return Err(KnightGenOverflow);
      }
      var pre := State();
      r := Mint(who, Knight(next.value, dna, squireName, 0, 0, gen.value));
      if r.Err? {
        // `_mint` returns a `&'static str`, which `?` reports as `DispatchError::Other`.
        r := Other(r.error);
        Rollback(pre);
      }
      Proofs.KnightSquireKeepsInv(pre, who, squireName, id1, id2, random);
    }

    /** `buy_knight` signed by `buyer`; `currency(from, to, amount)` is the
        balances pallet's transfer. */
    method BuyKnight(buyer: AccountId, id: KnightIndex,
                     currency: (AccountId, AccountId, Balance) -> bool) returns (r: Outcome)
      requires Valid()
      modifies this
      ensures Spec.Step(r, State()) == Spec.BuyKnight(old(State()), buyer, id, currency)
      ensures Valid()
    {
      if id !in knights {
        return Err(KnightNotFound);
      }
      var knight := knights[id];
      if knight.price == 0 {
        return Other(NotForSale);
      }
      if id !in knightToOwner {
        return Err(KnightNotFound);
      }
      var owner := knightToOwner[id];
      if owner == buyer {
        return Other(AlreadyOwnsKnight);
      }
      if !currency(buyer, owner, knight.price) {
        return Err(PaymentFailed);
      }
      var pre := State();
      Proofs.BuyKnightSteps(pre, buyer, id, currency);
      var inner := TransferInternal(id, owner, buyer);
      r := Spec.Expect(inner);
      if !r.Ok? {
        Rollback(pre);
      } else {
        knights := knights[id := knight.(price := 0)];
      }
      assert Spec.Step(r, State()) == Spec.BuyKnight(pre, buyer, id, currency);
      Proofs.BuyKnightKeepsInv(pre, buyer, id, currency);
    }

    /** `create_knight` signed by `who`; `dnaOf(newCount, who)` stands for
        the blake2-128 hash of the encoded pair. */
    method CreateKnight(who: AccountId, name: seq<Byte>, dnaOf: (nat, AccountId) -> Dna) returns (r: Outcome)
      requires Valid()
      modifies this
      ensures Spec.Step(r, State()) == Spec.CreateKnight(old(State()), who, name, dnaOf)
      ensures Valid()
    {
      var newCount := CheckedAdd(knightCount, 1, U64_MAX);
      if newCount.None? {
        return Err(KnightCountOverflow);
      }
      var next := CheckedAdd(latestKnightId, 1, KNIGHT_INDEX_MAX);
      if next.None? {
        return Err(KnightIdOverflow);
      }
      if next.value in knights {
        return Err(KnightAlreadyExists);
      }
      var pre := State();
      r := Mint(who, Knight(next.value, dnaOf(newCount.value, who), name, 0, 0, 1));
      if r.Err? {
        // `_mint` returns a `&'static str`, which `?` reports as `DispatchError::Other`.
        r := Other(r.error);
        Rollback(pre);
      }
      Proofs.CreateKnightKeepsInv(pre, who, name, dnaOf);
    }
  }
}

=== FILE: registry_proofs.dfy ===
/** What the knights pallet's calls guarantee: the error each one reports and
    when, what a successful call changes and leaves alone, and that every call
    keeps the storage invariant `Inv`. */
module RegistryProofs {
  import opened KnightTypes
  import opened OwnedList
  import opened Breeding
  import opened RegistrySpec

  /** `id` is owned by `a` according to the forward map `KnightToOwner`. */
  ghost predicate Owns(s: Storage, a: AccountId, id: KnightIndex)
  {
    id in s.knightToOwner && s.knightToOwner[id] == a
  }

  /** The empty storage satisfies the invariant, with every list sorted. */
  lemma EmptyInv()
    ensures Inv(Empty()) && AllSorted(Empty())
  {
  }

  /** Under the invariant the reverse index answers "what does `a` own"
      exactly as the forward map does. */
  lemma OwnershipIndexExact(s: Storage, a: AccountId, id: KnightIndex)
    requires Inv(s)
    ensures id in s.KnightsOf(a) <==> Owns(s, a, id)
  {
  }

  /** An owner holds at most `KnightCount` knights, so an owner's u64 count is
      never closer to overflow than the global count. */
  lemma OwnerCountBounded(s: Storage, a: AccountId)
    requires Inv(s)
    ensures s.CountOf(a) <= s.knightCount
  {
    var l := s.KnightsOf(a);
    forall y | y in l ensures y in s.knights.Keys {
    }
    DistinctWithin(l, s.knights.Keys);
  }

  /** `_mint` as written: it fails with `KnightCountOverflow` before any write,
      and with `OwnerToKnightCountOverflow` after five of its six writes. */
  lemma MintSteps(s: Storage, owner: AccountId, knight: Knight)
    ensures var st := Mint(s, owner, knight);
      && (st.outcome.Ok? || st.outcome == Err(KnightCountOverflow) || st.outcome == Err(OwnerToKnightCountOverflow))
      && (st.outcome == Err(KnightCountOverflow) <==> s.knightCount + 1 > U64_MAX)
      && (st.outcome == Err(KnightCountOverflow) ==> st.post == s)
      && (st.outcome == Err(OwnerToKnightCountOverflow) <==>
            s.knightCount + 1 <= U64_MAX && s.CountOf(owner) + 1 > U64_MAX)
      && (st.outcome == Err(OwnerToKnightCountOverflow) ==> st.post.ownerToKnightCount == s.ownerToKnightCount)
      && (st.outcome != Err(KnightCountOverflow) ==>
            && st.post.knightCount == s.knightCount + 1
            && st.post.knights == s.knights[knight.id := knight]
            && st.post.knightToOwner == s.knightToOwner[knight.id := owner]
            && st.post.KnightsOf(owner) == s.KnightsOf(owner) + [knight.id]
            && st.post.latestKnightId == knight.id)
      && (st.outcome.Ok? ==>
            && st.post.CountOf(owner) == s.CountOf(owner) + 1
            && forall a :: a != owner ==> st.post.KnightsOf(a) == s.KnightsOf(a) && st.post.CountOf(a) == s.CountOf(a))
  {
  }

  /** The storage `_mint` leaves after all six writes. */
  ghost predicate Added(s: Storage, p: Storage, owner: AccountId, knight: Knight)
  {
    && p.knightCount == s.knightCount + 1
    && p.latestKnightId == knight.id
    && p.knights == s.knights[knight.id := knight]
    && p.knightToOwner == s.knightToOwner[knight.id := owner]
    && p.ownerToKnights == s.ownerToKnights[owner := s.KnightsOf(owner) + [knight.id]]
    && p.ownerToKnightCount == s.ownerToKnightCount[owner := s.CountOf(owner) + 1]
  }

  /** The new id is above every issued id, hence in nobody's list. */
  lemma FreshId(s: Storage, id: KnightIndex)
    requires RecordsKeyed(s) && IndexConsistent(s) && s.latestKnightId < id
    ensures id !in s.knights && id !in s.knightToOwner
    ensures forall a: AccountId, y: KnightIndex :: y in s.KnightsOf(a) ==> y in s.knights && y < id
  {
    forall a: AccountId, y: KnightIndex | y in s.KnightsOf(a) ensures y in s.knights && y < id {
      FreshIdAt(s, id, a, y);
    }
  }

  /** A listed id is a record's id, so it lies below any id not yet issued. */
  lemma FreshIdAt(s: Storage, id: KnightIndex, a: AccountId, y: KnightIndex)
    requires RecordsKeyed(s) && IndexConsistent(s) && s.latestKnightId < id && y in s.KnightsOf(a)
    ensures y in s.knights && y < id
  {
    assert a in s.ownerToKnights && y in s.ownerToKnights[a];
    assert y in s.knightToOwner;
  }

  lemma AddedRecords(s: Storage, p: Storage, owner: AccountId, knight: Knight)
    requires Bounded(s) && RecordsKeyed(s) && Added(s, p, owner, knight)
    requires s.latestKnightId < knight.id <= KNIGHT_INDEX_MAX && knight.gen <= U64_MAX
    requires s.knightCount < U64_MAX
    ensures Bounded(p) && RecordsKeyed(p)
  {
    var id := knight.id;
    assert id !in s.knights;
    assert p.knights.Keys == s.knights.Keys + {id};
    assert |p.knights.Keys| == |s.knights.Keys| + 1;
    forall x | x in p.knights
      ensures p.knights[x].id == x && x <= p.latestKnightId && p.knights[x].gen <= U64_MAX
    {
      if x != id {
        assert x in s.knights;
      }
    }
  }

  lemma AddedIndex(s: Storage, p: Storage, owner: AccountId, knight: Knight)
    requires Inv(s) && Added(s, p, owner, knight) && s.latestKnightId < knight.id
    ensures IndexConsistent(p)
  {
    FreshId(s, knight.id);
    AddedNoDuplicates(s, p, owner, knight);
    AddedReverse(s, p, owner, knight);
    AddedForward(s, p, owner, knight);
  }

  lemma AddedNoDuplicates(s: Storage, p: Storage, owner: AccountId, knight: Knight)
    requires IndexConsistent(s) && Added(s, p, owner, knight) && knight.id !in s.KnightsOf(owner)
    ensures forall a :: a in p.ownerToKnights ==> NoDuplicates(p.ownerToKnights[a])
  {
    AppendFresh(s.KnightsOf(owner), knight.id);
    forall a | a in p.ownerToKnights ensures NoDuplicates(p.ownerToKnights[a]) {
      if a != owner {
        assert p.ownerToKnights[a] == s.ownerToKnights[a];
      }
    }
  }

  lemma AddedReverse(s: Storage, p: Storage, owner: AccountId, knight: Knight)
    requires IndexConsistent(s) && Added(s, p, owner, knight) && knight.id !in s.knightToOwner
    ensures forall a, x :: a in p.ownerToKnights && x in p.ownerToKnights[a] ==>
              x in p.knightToOwner && p.knightToOwner[x] == a
  {
    forall a, x | a in p.ownerToKnights && x in p.ownerToKnights[a]
      ensures x in p.knightToOwner && p.knightToOwner[x] == a
    {
      if a == owner {
        assert x in s.KnightsOf(owner) + [knight.id];
        if x != knight.id {
          assert x in s.ownerToKnights[owner];
        }
      } else {
        assert p.ownerToKnights[a] == s.ownerToKnights[a];
      }
    }
  }

  lemma AddedForward(s: Storage, p: Storage, owner: AccountId, knight: Knight)
    requires IndexConsistent(s) && Added(s, p, owner, knight)
    ensures p.knightToOwner.Keys == p.knights.Keys
    ensures forall x :: x in p.knightToOwner ==> x in p.KnightsOf(p.knightToOwner[x])
  {
    forall x | x in p.knightToOwner ensures x in p.KnightsOf(p.knightToOwner[x]) {
      if x != knight.id {
        assert x in s.KnightsOf(s.knightToOwner[x]);
      } else {
        assert p.KnightsOf(owner) == s.KnightsOf(owner) + [knight.id];
      }
    }
  }

  lemma AddedSorted(s: Storage, p: Storage, owner: AccountId, knight: Knight)
    requires Inv(s) && Added(s, p, owner, knight) && s.latestKnightId < knight.id && AllSorted(s)
    ensures AllSorted(p)
  {
    var id := knight.id;
    var l := s.KnightsOf(owner);
    forall y: KnightIndex | y in l ensures y < id {
      FreshIdAt(s, id, owner, y);
    }
    assert id !in l;
    AppendFresh(l, id);
    forall a | a in p.ownerToKnights ensures Sorted(p.ownerToKnights[a]) {
      if a != owner {
        assert p.ownerToKnights[a] == s.ownerToKnights[a];
      }
    }
  }

  lemma AddedCounts(s: Storage, p: Storage, owner: AccountId, knight: Knight)
    requires CountsMatch(s) && Added(s, p, owner, knight)
    ensures CountsMatch(p)
  {
    forall a ensures p.CountOf(a) == |p.KnightsOf(a)| {
      if a != owner {
        assert p.CountOf(a) == s.CountOf(a) && p.KnightsOf(a) == s.KnightsOf(a);
      }
    }
  }

  /** Adding a record under an id above every issued one keeps the
      invariant; since the new id is the largest, sorted lists stay sorted. */
  lemma AddedKeepsInv(s: Storage, p: Storage, owner: AccountId, knight: Knight)
    requires Inv(s) && Added(s, p, owner, knight)
    requires s.latestKnightId < knight.id <= KNIGHT_INDEX_MAX && knight.gen <= U64_MAX && s.knightCount < U64_MAX
    ensures Inv(p)
    ensures AllSorted(s) ==> AllSorted(p)
  {
    AddedRecords(s, p, owner, knight);
    AddedIndex(s, p, owner, knight);
    if AllSorted(s) {
      AddedSorted(s, p, owner, knight);
    }
    AddedCounts(s, p, owner, knight);
  }

  /** Under the invariant, minting an id above every issued one fails only on
      the global count, never on the owner's count, and when it succeeds it
      performs all six writes. */
  lemma MintEffect(s: Storage, owner: AccountId, knight: Knight)
    requires Inv(s)
    ensures Mint(s, owner, knight).outcome != Err(OwnerToKnightCountOverflow)
    ensures Mint(s, owner, knight).outcome.Ok? <==> s.knightCount < U64_MAX
    ensures Mint(s, owner, knight).outcome.Ok? ==> Added(s, Mint(s, owner, knight).post, owner, knight)
  {
    OwnerCountBounded(s, owner);
    MintRoom(s, owner, knight);
  }

  /** With room in both counts, `_mint` performs all six writes. */
  lemma MintRoom(s: Storage, owner: AccountId, knight: Knight)
    requires s.CountOf(owner) <= s.knightCount
    ensures Mint(s, owner, knight).outcome != Err(OwnerToKnightCountOverflow)
    ensures Mint(s, owner, knight).outcome.Ok? <==> s.knightCount < U64_MAX
    ensures Mint(s, owner, knight).outcome.Ok? ==> Added(s, Mint(s, owner, knight).post, owner, knight)
  {
  }

  /** A successful mint of an id above every issued one keeps the invariant
      and keeps sorted lists sorted. */
  lemma MintKeepsInv(s: Storage, owner: AccountId, knight: Knight)
    requires Inv(s) && s.latestKnightId < knight.id <= KNIGHT_INDEX_MAX && knight.gen <= U64_MAX
    ensures Mint(s, owner, knight).outcome.Ok? ==> Inv(Mint(s, owner, knight).post)
    ensures Mint(s, owner, knight).outcome.Ok? && AllSorted(s) ==> AllSorted(Mint(s, owner, knight).post)
  {
    MintEffect(s, owner, knight);
    if s.knightCount < U64_MAX {
      AddedKeepsInv(s, Mint(s, owner, knight).post, owner, knight);
    }
  }

  /** `_transfer_knight` as written: the duplicate check is its only check
      before a write; the forward map is already rewritten when the binary
      search misses, and the lists are already rewritten when a count check
      fails. It never touches `Knights`, `KnightCount` or `LatestKnightId`. */
  lemma TransferInternalSteps(s: Storage, id: KnightIndex, from: AccountId, to: AccountId)
    ensures var st := TransferInternal(s, id, from, to);
      && (st.outcome == Err(KnightAlreadyExists) <==> id in s.KnightsOf(to))
      && (st.outcome == Err(KnightAlreadyExists) ==> st.post == s)
      && (st.outcome == Panic(KnightMissingFromOwnerList) <==>
            id !in s.KnightsOf(to) && BinarySearch(s.KnightsOf(from), id).None?)
      && (st.outcome != Err(KnightAlreadyExists) ==> st.post.knightToOwner == s.knightToOwner[id := to])
      && (st.outcome == Err(OwnerToKnightCountUnderflow) ==>
            s.CountOf(from) == 0 && st.post.ownerToKnightCount == s.ownerToKnightCount &&
            st.post.KnightsOf(to) == s.KnightsOf(to) + [id])
      && (id !in s.KnightsOf(to) && BinarySearch(s.KnightsOf(from), id).Some? ==>
            (st.outcome == Err(OwnerToKnightCountUnderflow) <==> s.CountOf(from) == 0))
      && (id !in s.KnightsOf(to) && BinarySearch(s.KnightsOf(from), id).Some? && s.CountOf(from) >= 1 ==>
            (st.outcome == Err(OwnerToKnightCountOverflow) <==> s.CountOf(to) + 1 > U64_MAX))
      && (st.outcome.Ok? || st.outcome == Err(KnightAlreadyExists) ||
          st.outcome == Panic(KnightMissingFromOwnerList) ||
          st.outcome == Err(OwnerToKnightCountUnderflow) || st.outcome == Err(OwnerToKnightCountOverflow))
      && st.post.knights == s.knights && st.post.knightCount == s.knightCount
      && st.post.latestKnightId == s.latestKnightId
  {
  }

  /** The storage a successful `_transfer_knight` leaves: `id` moved from
      position `pos` of `from`'s list to the end of `to`'s. */
  ghost predicate Moved(s: Storage, p: Storage, id: KnightIndex, from: AccountId, to: AccountId, pos: nat)
  {
    && pos < |s.KnightsOf(from)| && s.KnightsOf(from)[pos] == id && s.CountOf(from) >= 1
    && p.knightCount == s.knightCount
    && p.latestKnightId == s.latestKnightId
    && p.knights == s.knights
    && p.knightToOwner == s.knightToOwner[id := to]
    && p.ownerToKnights == s.ownerToKnights[from := RemoveAt(s.KnightsOf(from), pos)][to := s.KnightsOf(to) + [id]]
    && p.ownerToKnightCount == s.ownerToKnightCount[from := s.CountOf(from) - 1][to := s.CountOf(to) + 1]
  }

  lemma MovedNoDuplicates(s: Storage, p: Storage, id: KnightIndex, from: AccountId, to: AccountId, pos: nat)
    requires IndexConsistent(s) && Moved(s, p, id, from, to, pos) && from != to && id !in s.KnightsOf(to)
    ensures forall a :: a in p.ownerToKnights ==> NoDuplicates(p.ownerToKnights[a])
  {
    RemoveAtExact(s.KnightsOf(from), pos);
    AppendFresh(s.KnightsOf(to), id);
    forall a | a in p.ownerToKnights ensures NoDuplicates(p.ownerToKnights[a]) {
      if a != from && a != to {
        assert p.ownerToKnights[a] == s.ownerToKnights[a];
      }
    }
  }

  lemma MovedReverse(s: Storage, p: Storage, id: KnightIndex, from: AccountId, to: AccountId, pos: nat)
    requires IndexConsistent(s) && Moved(s, p, id, from, to, pos) && from != to
    ensures forall a, x :: a in p.ownerToKnights && x in p.ownerToKnights[a] ==>
              x in p.knightToOwner && p.knightToOwner[x] == a
  {
    var lf := s.KnightsOf(from);
    assert from in s.ownerToKnights;
    RemoveAtExact(lf, pos);
    forall a, x | a in p.ownerToKnights && x in p.ownerToKnights[a]
      ensures x in p.knightToOwner && p.knightToOwner[x] == a
    {
      if a == to {
        assert x in s.KnightsOf(to) + [id];
        if x != id {
          assert x in s.ownerToKnights[to];
        }
      } else if a == from {
        assert x in RemoveAt(lf, pos);
        assert x in s.ownerToKnights[from] && x != id;
      } else {
        assert p.ownerToKnights[a] == s.ownerToKnights[a];
        assert x != id by {
          assert s.knightToOwner[id] == from;
        }
      }
    }
  }

  /** Per owner, what a move does to the lists and counts. */
  lemma MovedLists(s: Storage, p: Storage, id: KnightIndex, from: AccountId, to: AccountId, pos: nat)
    requires Moved(s, p, id, from, to, pos) && from != to
    ensures p.KnightsOf(from) == RemoveAt(s.KnightsOf(from), pos)
    ensures p.KnightsOf(to) == s.KnightsOf(to) + [id]
    ensures p.CountOf(from) == s.CountOf(from) - 1 && p.CountOf(to) == s.CountOf(to) + 1
    ensures forall a :: a != from && a != to ==> p.KnightsOf(a) == s.KnightsOf(a) && p.CountOf(a) == s.CountOf(a)
  {
  }

  lemma MovedForward(s: Storage, p: Storage, id: KnightIndex, from: AccountId, to: AccountId, pos: nat)
    requires IndexConsistent(s) && Moved(s, p, id, from, to, pos) && from != to
    ensures p.knightToOwner.Keys == p.knights.Keys
    ensures forall x :: x in p.knightToOwner ==> x in p.KnightsOf(p.knightToOwner[x])
  {
    var lf := s.KnightsOf(from);
    assert from in s.ownerToKnights;
    RemoveAtExact(lf, pos);
    MovedLists(s, p, id, from, to, pos);
    forall x | x in p.knightToOwner ensures x in p.KnightsOf(p.knightToOwner[x]) {
      if x != id {
        var o := s.knightToOwner[x];
        assert x in s.KnightsOf(o);
        assert p.knightToOwner[x] == o;
      }
    }
  }

  lemma MovedCounts(s: Storage, p: Storage, id: KnightIndex, from: AccountId, to: AccountId, pos: nat)
    requires IndexConsistent(s) && CountsMatch(s) && Moved(s, p, id, from, to, pos) && from != to
    ensures CountsMatch(p)
  {
    assert from in s.ownerToKnights;
    RemoveAtExact(s.KnightsOf(from), pos);
    forall a ensures p.CountOf(a) == |p.KnightsOf(a)| {
      if a != from && a != to {
        assert p.CountOf(a) == s.CountOf(a) && p.KnightsOf(a) == s.KnightsOf(a);
      }
    }
  }

  /** The receiver holds none of the moving knight, so after the move it holds
      at most all knights: its u64 count cannot overflow. */
  lemma ReceiverRoom(s: Storage, id: KnightIndex, to: AccountId)
    requires IndexConsistent(s) && RecordsKeyed(s) && id in s.knights && id !in s.KnightsOf(to)
    ensures |s.KnightsOf(to)| + 1 <= s.knightCount
  {
    var l := s.KnightsOf(to);
    var others := s.knights.Keys - {id};
    forall y: KnightIndex | y in l ensures y in others {
      assert to in s.ownerToKnights && y in s.ownerToKnights[to];
    }
    assert NoDuplicates(l);
    DistinctWithin(l, others);
    assert |others| == |s.knights.Keys| - 1;
  }

  /** A found position is all a successful `_transfer_knight` needs when the
      counts have room. */
  lemma TransferInternalFound(s: Storage, id: KnightIndex, from: AccountId, to: AccountId, pos: nat)
    requires id !in s.KnightsOf(to) && BinarySearch(s.KnightsOf(from), id) == Some(pos)
    requires from != to && s.CountOf(from) >= 1 && s.CountOf(to) + 1 <= U64_MAX
    ensures TransferInternal(s, id, from, to).outcome.Ok?
    ensures Moved(s, TransferInternal(s, id, from, to).post, id, from, to, pos)
  {
  }

  /** The effect of a move on a storage that satisfies the invariant. */
  lemma MovedKeepsInv(s: Storage, p: Storage, id: KnightIndex, from: AccountId, to: AccountId, pos: nat)
    requires Inv(s) && Moved(s, p, id, from, to, pos) && from != to && id !in s.KnightsOf(to)
    requires s.CountOf(to) + 1 <= U64_MAX
    ensures Inv(p)
  {
    MovedRecords(s, p, id, from, to, pos);
    MovedNoDuplicates(s, p, id, from, to, pos);
    MovedReverse(s, p, id, from, to, pos);
    MovedForward(s, p, id, from, to, pos);
    MovedCounts(s, p, id, from, to, pos);
  }

  lemma MovedRecords(s: Storage, p: Storage, id: KnightIndex, from: AccountId, to: AccountId, pos: nat)
    requires Bounded(s) && RecordsKeyed(s) && Moved(s, p, id, from, to, pos)
    ensures Bounded(p) && RecordsKeyed(p)
  {
  }

  lemma MovedFromList(s: Storage, p: Storage, id: KnightIndex, from: AccountId, to: AccountId, pos: nat)
    requires IndexConsistent(s) && Moved(s, p, id, from, to, pos) && from != to
    ensures forall x: KnightIndex :: x in p.KnightsOf(from) <==> x in s.KnightsOf(from) && x != id
  {
    assert from in s.ownerToKnights;
    RemoveAtExact(s.KnightsOf(from), pos);
    MovedLists(s, p, id, from, to, pos);
  }

  /** Under the invariant, when `from` owns `id`, `_transfer_knight` fails
      only when the receiver is `from` itself (`KnightAlreadyExists`) or when
      the binary search misses `id` in `from`'s list (a panic), and a sorted
      list never misses; a count can never underflow or overflow. On success
      `id` belongs to `to`, has left `from`'s list and ended `to`'s, the two
      counts move by one, and no other owner and no record changes. */
  lemma TransferInternalEffect(s: Storage, id: KnightIndex, from: AccountId, to: AccountId)
    requires Inv(s) && Owns(s, from, id)
    ensures var st := TransferInternal(s, id, from, to);
      && (st.outcome.Ok? || st.outcome == Err(KnightAlreadyExists) ||
          st.outcome == Panic(KnightMissingFromOwnerList))
      && (st.outcome == Err(KnightAlreadyExists) <==> from == to)
      && (from != to ==> (st.outcome.Ok? <==> BinarySearch(s.KnightsOf(from), id).Some?))
      && (from != to && Sorted(s.KnightsOf(from)) ==> st.outcome.Ok?)
      && (st.outcome.Ok? ==>
            && Owns(st.post, to, id)
            && (forall x: KnightIndex :: x in st.post.KnightsOf(from) <==> x in s.KnightsOf(from) && x != id)
            && st.post.KnightsOf(to) == s.KnightsOf(to) + [id]
            && st.post.CountOf(from) == s.CountOf(from) - 1
            && st.post.CountOf(to) == s.CountOf(to) + 1
            && st.post.knights == s.knights
            && (forall a :: a != from && a != to ==>
                  st.post.KnightsOf(a) == s.KnightsOf(a) && st.post.CountOf(a) == s.CountOf(a)))
  {
    var st := TransferInternal(s, id, from, to);
    var lf := s.KnightsOf(from);
    assert id in lf;
    if from != to {
      assert id !in s.KnightsOf(to);
      if Sorted(lf) {
        BinarySearchSorted(lf, id);
      }
      var found := BinarySearch(lf, id);
      if found.Some? {
        ReceiverRoom(s, id, to);
        TransferInternalFound(s, id, from, to, found.value);
        MovedFromList(s, st.post, id, from, to, found.value);
        MovedLists(s, st.post, id, from, to, found.value);
      }
    }
  }

  /** A successful `_transfer_knight` by the owner keeps the invariant. */
  lemma TransferInternalKeepsInv(s: Storage, id: KnightIndex, from: AccountId, to: AccountId)
    requires Inv(s) && Owns(s, from, id)
    ensures TransferInternal(s, id, from, to).outcome.Ok? ==> Inv(TransferInternal(s, id, from, to).post)
  {
    var st := TransferInternal(s, id, from, to);
    var lf := s.KnightsOf(from);
    assert id in lf;
    TransferInternalSteps(s, id, from, to);
    var found := BinarySearch(lf, id);
    if from != to && found.Some? {
      assert id !in s.KnightsOf(to);
      ReceiverRoom(s, id, to);
      TransferInternalFound(s, id, from, to, found.value);
      MovedKeepsInv(s, st.post, id, from, to, found.value);
    }
  }

  /** `transfer_knight` on any storage: `KnightNotFound` when `id` has no
      owner and `NotRightfulOwner` when the caller is not the owner; for the
      owner the outcome is `_transfer_knight`'s, with an error turned into a
      panic by the `expect`. Whatever fails, the storage is left as it was. */
  lemma TransferKnightSteps(s: Storage, who: AccountId, id: KnightIndex, to: AccountId)
    ensures var st := TransferKnight(s, who, id, to);
      && (st.outcome == Err(KnightNotFound) <==> id !in s.knightToOwner)
      && (st.outcome == Err(NotRightfulOwner) <==> id in s.knightToOwner && s.knightToOwner[id] != who)
      && (!st.outcome.Ok? ==> st.post == s)
      && (Owns(s, who, id) ==> st.outcome == Expect(TransferInternal(s, id, who, to).outcome))
      && (st.outcome.Ok? ==> Owns(s, who, id) && st.post == TransferInternal(s, id, who, to).post)
  {
  }

  /** `transfer_knight`: `KnightNotFound` when `id` has no owner and
      `NotRightfulOwner` when the caller is not the owner, both with nothing
      changed. For the owner the call panics when the receiver is the owner
      (the duplicate check trips) or when the binary search misses, and
      succeeds whenever the owner's list is sorted. Success hands `id` to
      `to`, takes it out of the caller's list and leaves
      every record and every other owner alone. */
  lemma TransferKnightEffect(s: Storage, who: AccountId, id: KnightIndex, to: AccountId)
    requires Inv(s)
    ensures var st := TransferKnight(s, who, id, to);
      && (st.outcome == Err(KnightNotFound) <==> id !in s.knightToOwner)
      && (st.outcome == Err(NotRightfulOwner) <==> id in s.knightToOwner && s.knightToOwner[id] != who)
      && (st.outcome.Ok? || st.outcome == Err(KnightNotFound) || st.outcome == Err(NotRightfulOwner) ||
          st.outcome == Panic(TransfersKnight(KnightAlreadyExists)) || st.outcome == Panic(KnightMissingFromOwnerList))
      && (!st.outcome.Ok? ==> st.post == s)
      && (Owns(s, who, id) && to == who ==> st.outcome == Panic(TransfersKnight(KnightAlreadyExists)))
      && (Owns(s, who, id) && to != who ==> (st.outcome.Ok? <==> BinarySearch(s.KnightsOf(who), id).Some?))
      && (Owns(s, who, id) && to != who && BinarySearch(s.KnightsOf(who), id).None? ==>
            st.outcome == Panic(KnightMissingFromOwnerList))
      && (Owns(s, who, id) && to != who && Sorted(s.KnightsOf(who)) ==> st.outcome.Ok?)
      && (st.outcome.Ok? ==>
            && Owns(st.post, to, id)
            && st.post.KnightsOf(to) == s.KnightsOf(to) + [id]
            && (forall x: KnightIndex :: x in st.post.KnightsOf(who) <==> x in s.KnightsOf(who) && x != id)
            && st.post.CountOf(who) == s.CountOf(who) - 1
            && st.post.CountOf(to) == s.CountOf(to) + 1
            && st.post.knights == s.knights
            && (forall a :: a != who && a != to ==>
                  st.post.KnightsOf(a) == s.KnightsOf(a) && st.post.CountOf(a) == s.CountOf(a)))
  {
    if Owns(s, who, id) {
      TransferInternalEffect(s, id, who, to);
    }
  }

  /** `transfer_knight` keeps the invariant, whatever its outcome. */
  lemma TransferKnightKeepsInv(s: Storage, who: AccountId, id: KnightIndex, to: AccountId)
    requires Inv(s)
    ensures Inv(TransferKnight(s, who, id, to).post)
  {
    if Owns(s, who, id) {
      TransferInternalKeepsInv(s, id, who, to);
    }
  }

  /** Storage that differs from `s` in record contents only, with every
      record still under its own id and of a u64 generation. */
  ghost predicate SameIndex(s: Storage, p: Storage)
  {
    && p.knightCount == s.knightCount
    && p.latestKnightId == s.latestKnightId
    && p.knights.Keys == s.knights.Keys
    && p.knightToOwner == s.knightToOwner
    && p.ownerToKnights == s.ownerToKnights
    && p.ownerToKnightCount == s.ownerToKnightCount
    && (forall k :: k in p.knights ==> p.knights[k].id == k && p.knights[k].gen <= U64_MAX)
  }

  lemma SameIndexKeepsInv(s: Storage, p: Storage)
    requires Inv(s) && SameIndex(s, p)
    ensures Inv(p)
  {
    SameIndexRecords(s, p);
    SameIndexIndex(s, p);
    SameIndexCounts(s, p);
  }

  lemma SameIndexRecords(s: Storage, p: Storage)
    requires RecordsKeyed(s) && SameIndex(s, p)
    ensures RecordsKeyed(p)
  {
    forall k | k in p.knights ensures k <= p.latestKnightId {
      assert k in s.knights;
    }
  }

  lemma SameIndexIndex(s: Storage, p: Storage)
    requires IndexConsistent(s) && SameIndex(s, p)
    ensures IndexConsistent(p)
  {
    assert forall a :: p.KnightsOf(a) == s.KnightsOf(a);
  }

  lemma SameIndexCounts(s: Storage, p: Storage)
    requires CountsMatch(s) && SameIndex(s, p)
    ensures CountsMatch(p)
  {
    assert forall a :: p.KnightsOf(a) == s.KnightsOf(a) && p.CountOf(a) == s.CountOf(a);
  }

  /** Rewriting one record's price keeps the invariant. */
  lemma PriceUpdateKeepsInv(s: Storage, id: KnightIndex, price: Balance)
    requires Inv(s) && id in s.knights
    ensures Inv(s.(knights := s.knights[id := s.knights[id].(price := price)]))
  {
    PriceUpdateSameIndex(s, id, price);
    SameIndexKeepsInv(s, s.(knights := s.knights[id := s.knights[id].(price := price)]));
  }

  lemma PriceUpdateSameIndex(s: Storage, id: KnightIndex, price: Balance)
    requires RecordsKeyed(s) && id in s.knights
    ensures SameIndex(s, s.(knights := s.knights[id := s.knights[id].(price := price)]))
  {
    var p := s.(knights := s.knights[id := s.knights[id].(price := price)]);
    assert p.knights.Keys == s.knights.Keys;
  }

  /** `set_price`: `KnightNotFound` when the record or its owner is missing,
      `NotRightfulOwner` when the caller is not the owner, both with nothing
      changed; otherwise only the `price` field of that one record changes. */
  lemma SetPriceEffect(s: Storage, who: AccountId, id: KnightIndex, price: Balance)
    ensures var st := SetPrice(s, who, id, price);
      && (st.outcome == Err(KnightNotFound) <==> id !in s.knights || id !in s.knightToOwner)
      && (st.outcome == Err(NotRightfulOwner) <==>
            id in s.knights && id in s.knightToOwner && s.knightToOwner[id] != who)
      && (st.outcome.Ok? <==> id in s.knights && Owns(s, who, id))
      && (!st.outcome.Ok? ==> st.post == s)
      && (st.outcome.Ok? ==>
            && st.post.knights.Keys == s.knights.Keys
            && st.post.knights[id].price == price
            && st.post.knights[id].id == s.knights[id].id
            && st.post.knights[id].dna == s.knights[id].dna
            && st.post.knights[id].name == s.knights[id].name
            && st.post.knights[id].wealth == s.knights[id].wealth
            && st.post.knights[id].gen == s.knights[id].gen
            && (forall k :: k in s.knights && k != id ==> st.post.knights[k] == s.knights[k])
            && st.post.knightToOwner == s.knightToOwner
            && st.post.ownerToKnights == s.ownerToKnights
            && st.post.ownerToKnightCount == s.ownerToKnightCount
            && st.post.knightCount == s.knightCount
            && st.post.latestKnightId == s.latestKnightId)
  {
  }

  /** `set_price` keeps the invariant, whatever its outcome. */
  lemma SetPriceKeepsInv(s: Storage, who: AccountId, id: KnightIndex, price: Balance)
    requires Inv(s)
    ensures Inv(SetPrice(s, who, id, price).post)
  {
    if id in s.knights {
      PriceUpdateKeepsInv(s, id, price);
    }
  }

  /** `buy_knight` on any storage: `KnightNotFound` for a missing record,
      "not for sale" for price 0, `KnightNotFound` again for a priced record
      without an owner, "already own" when the buyer is the owner, and the
      currency pallet's failure when the payment from buyer to owner of
      exactly the price does not go through, in that order; each changes
      nothing. Past the payment the call succeeds exactly when
      `_transfer_knight` from the owner to the buyer does, and then leaves
      that call's storage with the knight's price reset to 0. */
  lemma BuyKnightSteps(s: Storage, buyer: AccountId, id: KnightIndex,
                       currency: (AccountId, AccountId, Balance) -> bool)
    ensures var st := BuyKnight(s, buyer, id, currency);
      var owned := id in s.knights && s.knights[id].price != 0 && id in s.knightToOwner;
      && (st.outcome == Err(KnightNotFound) <==>
            id !in s.knights || (s.knights[id].price != 0 && id !in s.knightToOwner))
      && (st.outcome == Other(NotForSale) <==> id in s.knights && s.knights[id].price == 0)
      && (st.outcome == Other(AlreadyOwnsKnight) <==> owned && Owns(s, buyer, id))
      && (st.outcome == Err(PaymentFailed) <==>
            owned && !Owns(s, buyer, id) && !currency(buyer, s.knightToOwner[id], s.knights[id].price))
      && (!st.outcome.Ok? ==> st.post == s)
      && (st.outcome.Ok? <==>
            && owned && !Owns(s, buyer, id)
            && currency(buyer, s.knightToOwner[id], s.knights[id].price)
            && TransferInternal(s, id, s.knightToOwner[id], buyer).outcome.Ok?)
      && (owned && !Owns(s, buyer, id) && currency(buyer, s.knightToOwner[id], s.knights[id].price) ==>
            st.outcome == Expect(TransferInternal(s, id, s.knightToOwner[id], buyer).outcome))
      && (st.outcome.Ok? ==>
            owned &&
            st.post == TransferInternal(s, id, s.knightToOwner[id], buyer).post.(
                         knights := s.knights[id := s.knights[id].(price := 0)]))
  {
    if id in s.knights && s.knights[id].price != 0 && id in s.knightToOwner && !Owns(s, buyer, id) {
      TransferInternalSteps(s, id, s.knightToOwner[id], buyer);
    }
  }

  /** `buy_knight` under the invariant (its errors are those of
      `BuyKnightSteps`). On success the payment went through, the buyer owns
      the knight, the seller no longer lists it, the stored price is 0 and
      nothing else in any record changes. Whenever the seller's list is
      sorted, a paid purchase succeeds. */
  lemma BuyKnightEffect(s: Storage, buyer: AccountId, id: KnightIndex,
                        currency: (AccountId, AccountId, Balance) -> bool)
    requires Inv(s)
    ensures var st := BuyKnight(s, buyer, id, currency);
      && (id in s.knights && s.knights[id].price != 0 && !Owns(s, buyer, id) &&
          currency(buyer, s.knightToOwner[id], s.knights[id].price) &&
          Sorted(s.KnightsOf(s.knightToOwner[id]))
          ==> st.outcome.Ok?)
      && (st.outcome.Ok? ==>
            && id in s.knights && id in s.knightToOwner
            && currency(buyer, s.knightToOwner[id], s.knights[id].price)
            && Owns(st.post, buyer, id)
            && id in st.post.KnightsOf(buyer) && id !in st.post.KnightsOf(s.knightToOwner[id])
            && st.post.knights == s.knights[id := s.knights[id].(price := 0)])
  {
    BuyKnightSteps(s, buyer, id, currency);
    if id in s.knights && s.knights[id].price != 0 && !Owns(s, buyer, id) {
      var seller := s.knightToOwner[id];
      TransferInternalEffect(s, id, seller, buyer);
      BuyKnightPaid(s, buyer, id, currency);
    }
  }

  /** A paid purchase ends with the storage of a successful move from the
      seller to the buyer, with the price reset. */
  lemma BuyKnightPaid(s: Storage, buyer: AccountId, id: KnightIndex,
                      currency: (AccountId, AccountId, Balance) -> bool)
    requires s.knightToOwner.Keys == s.knights.Keys
    requires id in s.knights && s.knights[id].price != 0 && !Owns(s, buyer, id)
    requires var tr := TransferInternal(s, id, s.knightToOwner[id], buyer);
      tr.outcome.Ok? ==>
        && Owns(tr.post, buyer, id)
        && id !in tr.post.KnightsOf(s.knightToOwner[id])
        && tr.post.KnightsOf(buyer) == s.KnightsOf(buyer) + [id]
        && tr.post.knights == s.knights
    ensures var st := BuyKnight(s, buyer, id, currency);
      st.outcome.Ok? ==>
        && Owns(st.post, buyer, id)
        && id in st.post.KnightsOf(buyer) && id !in st.post.KnightsOf(s.knightToOwner[id])
        && st.post.knights == s.knights[id := s.knights[id].(price := 0)]
  {
    var tr := TransferInternal(s, id, s.knightToOwner[id], buyer);
    BuyKnightSteps(s, buyer, id, currency);
    assert (s.KnightsOf(buyer) + [id])[|s.KnightsOf(buyer)|] == id;
  }

  /** `buy_knight` keeps the invariant, whatever its outcome. */
  lemma BuyKnightKeepsInv(s: Storage, buyer: AccountId, id: KnightIndex,
                          currency: (AccountId, AccountId, Balance) -> bool)
    requires Inv(s)
    ensures Inv(BuyKnight(s, buyer, id, currency).post)
  {
    BuyKnightSteps(s, buyer, id, currency);
    if id in s.knights && s.knights[id].price != 0 && !Owns(s, buyer, id) {
      var seller := s.knightToOwner[id];
      TransferInternalSteps(s, id, seller, buyer);
      TransferInternalKeepsInv(s, id, seller, buyer);
      var tr := TransferInternal(s, id, seller, buyer);
      if tr.outcome.Ok? {
        PriceUpdateKeepsInv(tr.post, id, 0);
        assert tr.post.(knights := tr.post.knights[id := tr.post.knights[id].(price := 0)])
            == tr.post.(knights := s.knights[id := s.knights[id].(price := 0)]);
      }
    }
  }

  /** `create_knight` on any storage: its own checks in their order (the
      global count, the next id, a record already under the next id), then
      `_mint`'s late check of the caller's count, which reaches the caller as
      a string error. Each failure changes nothing. */
  lemma CreateKnightChecks(s: Storage, who: AccountId, name: seq<Byte>, dnaOf: (nat, AccountId) -> Dna)
    ensures var st := CreateKnight(s, who, name, dnaOf);
      && (st.outcome == Err(KnightCountOverflow) <==> s.knightCount >= U64_MAX)
      && (st.outcome == Err(KnightIdOverflow) <==> s.knightCount < U64_MAX && s.latestKnightId >= KNIGHT_INDEX_MAX)
      && (st.outcome == Err(KnightAlreadyExists) <==>
            s.knightCount < U64_MAX && s.latestKnightId < KNIGHT_INDEX_MAX && s.latestKnightId + 1 in s.knights)
      && (st.outcome == Other(OwnerToKnightCountOverflow) <==>
            s.knightCount < U64_MAX && s.latestKnightId < KNIGHT_INDEX_MAX && s.latestKnightId + 1 !in s.knights &&
            s.CountOf(who) >= U64_MAX)
      && (st.outcome.Ok? || st.outcome == Err(KnightCountOverflow) || st.outcome == Err(KnightIdOverflow) ||
          st.outcome == Err(KnightAlreadyExists) || st.outcome == Other(OwnerToKnightCountOverflow))
      && (!st.outcome.Ok? ==> st.post == s)
  {
  }

  /** `create_knight` on any storage where the next id is free and the
      caller's count is no larger than the global count: the two overflow
      errors come first and change nothing, and otherwise the call is one
      `_mint` of the new record that runs to the end. */
  lemma CreateKnightSteps(s: Storage, who: AccountId, name: seq<Byte>, dnaOf: (nat, AccountId) -> Dna)
    requires Bounded(s) && s.latestKnightId + 1 !in s.knights && s.CountOf(who) <= s.knightCount
    ensures var st := CreateKnight(s, who, name, dnaOf);
      var id := s.latestKnightId + 1;
      var knight := Knight(id, dnaOf(s.knightCount + 1, who), name, 0, 0, 1);
      && (st.outcome == Err(KnightCountOverflow) <==> s.knightCount == U64_MAX)
      && (st.outcome == Err(KnightIdOverflow) <==> s.knightCount < U64_MAX && s.latestKnightId == KNIGHT_INDEX_MAX)
      && (st.outcome.Ok? <==> s.knightCount < U64_MAX && s.latestKnightId < KNIGHT_INDEX_MAX)
      && (!st.outcome.Ok? ==> st.post == s)
      && (st.outcome.Ok? ==>
            && st == Mint(s, who, knight)
            && st.post.knights == s.knights[id := knight]
            && st.post.knightCount == s.knightCount + 1
            && st.post.latestKnightId == id
            && Owns(st.post, who, id)
            && st.post.KnightsOf(who) == s.KnightsOf(who) + [id]
            && st.post.CountOf(who) == s.CountOf(who) + 1)
  {
  }

  /** `create_knight` under the invariant: it fails only with
      `KnightCountOverflow` or `KnightIdOverflow` (as `CreateKnightSteps`
      says when); `KnightAlreadyExists` cannot happen, as ids are issued
      upwards. On success the knight gets id
      `LatestKnightId + 1`, price 0, wealth 0, generation 1, the given name and
      the DNA hashed from the new count and the caller; it is appended to the
      caller's list and both counts rise by one. */
  lemma CreateKnightEffect(s: Storage, who: AccountId, name: seq<Byte>, dnaOf: (nat, AccountId) -> Dna)
    requires Inv(s)
    ensures var st := CreateKnight(s, who, name, dnaOf);
      var id := s.latestKnightId + 1;
      && (st.outcome.Ok? || st.outcome == Err(KnightCountOverflow) || st.outcome == Err(KnightIdOverflow))
      && (st.outcome.Ok? <==> s.knightCount < U64_MAX && s.latestKnightId < KNIGHT_INDEX_MAX)
      && (st.outcome.Ok? ==>
            && id !in s.knights
            && st.post.knights == s.knights[id := Knight(id, dnaOf(s.knightCount + 1, who), name, 0, 0, 1)]
            && st.post.knightCount == s.knightCount + 1
            && st.post.latestKnightId == id
            && Owns(st.post, who, id)
            && st.post.KnightsOf(who) == s.KnightsOf(who) + [id]
            && st.post.CountOf(who) == s.CountOf(who) + 1)
  {
    FreshId(s, s.latestKnightId + 1);
    OwnerCountBounded(s, who);
    CreateKnightSteps(s, who, name, dnaOf);
  }

  /** `create_knight` keeps the invariant, and keeps every list sorted: the
      new id is larger than any id already listed. */
  lemma CreateKnightKeepsInv(s: Storage, who: AccountId, name: seq<Byte>, dnaOf: (nat, AccountId) -> Dna)
    requires Inv(s)
    ensures Inv(CreateKnight(s, who, name, dnaOf).post)
    ensures AllSorted(s) ==> AllSorted(CreateKnight(s, who, name, dnaOf).post)
  {
    var id := s.latestKnightId + 1;
    FreshId(s, id);
    OwnerCountBounded(s, who);
    CreateKnightSteps(s, who, name, dnaOf);
    if s.knightCount < U64_MAX && s.latestKnightId < KNIGHT_INDEX_MAX {
      MintKeepsInv(s, who, Knight(id, dnaOf(s.knightCount + 1, who), name, 0, 0, 1));
    }
  }

  /** `knight_squire` on any storage: the next id must fit a `KnightIndex`
      and must not already hold a record; with both parents present, parent
      1's generation and the global count below their maximum, `_mint`'s late
      check of the caller's count fails as a string error. Every failure
      changes nothing. */
  lemma KnightSquireChecks(s: Storage, who: AccountId, squireName: seq<Byte>,
                           id1: KnightIndex, id2: KnightIndex, random: seq<Byte> -> Hash256)
    ensures var st := KnightSquire(s, who, squireName, id1, id2, random);
      && (st.outcome == Err(KnightIdOverflow) <==> s.latestKnightId >= KNIGHT_INDEX_MAX)
      && (st.outcome == Err(KnightAlreadyExists) <==>
            s.latestKnightId < KNIGHT_INDEX_MAX && s.latestKnightId + 1 in s.knights)
      && (st.outcome == Other(OwnerToKnightCountOverflow) <==>
            s.latestKnightId < KNIGHT_INDEX_MAX && s.latestKnightId + 1 !in s.knights &&
            id1 in s.knights && id2 in s.knights && s.knights[id1].gen < U64_MAX &&
            s.knightCount < U64_MAX && s.CountOf(who) >= U64_MAX)
      && (!st.outcome.Ok? ==> st.post == s)
  {
  }

  /** `knight_squire` on any storage where the next id is free and the
      caller's count is no larger than the global count: `KnightIdOverflow`,
      then `KnightNotFound` for a missing parent, then `KnightGenOverflow` when
      parent 1's generation is at its u64 maximum, then `_mint`'s
      `KnightCountOverflow`, which reaches the caller as a string error;
      each changes nothing. Otherwise the call is one `_mint`
      of the child, whose DNA is crossed from the parents' under the hash of
      their two names. */
  lemma KnightSquireSteps(s: Storage, who: AccountId, squireName: seq<Byte>,
                          id1: KnightIndex, id2: KnightIndex, random: seq<Byte> -> Hash256)
    requires Bounded(s) && s.latestKnightId + 1 !in s.knights && s.CountOf(who) <= s.knightCount
    ensures var st := KnightSquire(s, who, squireName, id1, id2, random);
      && (st.outcome == Err(KnightIdOverflow) <==> s.latestKnightId == KNIGHT_INDEX_MAX)
      && (st.outcome == Err(KnightNotFound) <==>
            s.latestKnightId < KNIGHT_INDEX_MAX && (id1 !in s.knights || id2 !in s.knights))
      && (st.outcome == Err(KnightGenOverflow) <==>
            s.latestKnightId < KNIGHT_INDEX_MAX && id1 in s.knights && id2 in s.knights &&
            s.knights[id1].gen >= U64_MAX)
      && (st.outcome == Other(KnightCountOverflow) <==>
            s.latestKnightId < KNIGHT_INDEX_MAX && id1 in s.knights && id2 in s.knights &&
            s.knights[id1].gen < U64_MAX && s.knightCount == U64_MAX)
      && (st.outcome.Ok? || st.outcome == Err(KnightIdOverflow) || st.outcome == Err(KnightNotFound) ||
          st.outcome == Err(KnightGenOverflow) || st.outcome == Other(KnightCountOverflow))
      && (!st.outcome.Ok? ==> st.post == s)
      && (st.outcome.Ok? ==>
            && id1 in s.knights && id2 in s.knights
            && var k1, k2 := s.knights[id1], s.knights[id2];
               var child := Knight(s.latestKnightId + 1, Crossed(k1.dna, k2.dna, random(k1.name + k2.name)),
                                   squireName, 0, 0, k1.gen + 1);
               var seed := random(k1.name + k2.name);
               && st == Mint(s, who, child)
               && st.post.knights == s.knights[child.id := child]
               && st.post.knights[child.id] == child
               && (forall i :: 0 <= i < DNA_LEN ==>
                     child.dna[i] == (if seed[i] % 2 == 0 then k2.dna[i] else k1.dna[i]))
               && Owns(st.post, who, child.id)
               && (forall k :: k in s.knights ==> k in st.post.knights && st.post.knights[k] == s.knights[k]))
  {
  }

  /** `knight_squire` under the invariant: `KnightAlreadyExists` cannot
      happen, and the other errors are those of `KnightSquireSteps`. The
      child gets the next id,
      generation parent 1's plus one, price and wealth 0, the squire's name,
      and byte `i` of its DNA from parent 2 when byte `i` of the hash of the
      two parents' names is even and from parent 1 otherwise. No existing
      record changes: the parents' names are only concatenated as the seed.
      The child belongs to the caller. */
  lemma KnightSquireEffect(s: Storage, who: AccountId, squireName: seq<Byte>,
                           id1: KnightIndex, id2: KnightIndex, random: seq<Byte> -> Hash256)
    requires Inv(s)
    ensures var st := KnightSquire(s, who, squireName, id1, id2, random);
      var id := s.latestKnightId + 1;
      && st.outcome != Err(KnightAlreadyExists)
      && (st.outcome.Ok? ==>
            && id1 in s.knights && id2 in s.knights && id !in s.knights && id in st.post.knights
            && var k1, k2 := s.knights[id1], s.knights[id2];
               var seed := random(k1.name + k2.name);
               && st.post.knights[id].id == id
               && st.post.knights[id].gen == k1.gen + 1
               && st.post.knights[id].name == squireName
               && st.post.knights[id].price == 0 && st.post.knights[id].wealth == 0
               && (forall i :: 0 <= i < DNA_LEN ==>
                     st.post.knights[id].dna[i] == (if seed[i] % 2 == 0 then k2.dna[i] else k1.dna[i]))
               && (forall k :: k in s.knights ==> k in st.post.knights && st.post.knights[k] == s.knights[k])
               && Owns(st.post, who, id))
  {
    FreshId(s, s.latestKnightId + 1);
    OwnerCountBounded(s, who);
    KnightSquireSteps(s, who, squireName, id1, id2, random);
  }

  /** `knight_squire` keeps the invariant, whatever its outcome. */
  lemma KnightSquireKeepsInv(s: Storage, who: AccountId, squireName: seq<Byte>,
                             id1: KnightIndex, id2: KnightIndex, random: seq<Byte> -> Hash256)
    requires Inv(s)
    ensures Inv(KnightSquire(s, who, squireName, id1, id2, random).post)
  {
    KnightSquireMints(s, who, squireName, id1, id2, random);
    if KnightSquire(s, who, squireName, id1, id2, random).outcome.Ok? {
      MintKeepsInv(s, who, Squire(s, squireName, id1, id2, random));
    }
  }

  /** `knight_squire` either changes nothing or is one `_mint` of the child
      under the next id, with a generation that fits a u64. */
  lemma KnightSquireMints(s: Storage, who: AccountId, squireName: seq<Byte>,
                          id1: KnightIndex, id2: KnightIndex, random: seq<Byte> -> Hash256)
    ensures var st := KnightSquire(s, who, squireName, id1, id2, random);
      && (!st.outcome.Ok? ==> st.post == s)
      && (st.outcome.Ok? ==>
            && s.latestKnightId < KNIGHT_INDEX_MAX && id1 in s.knights && id2 in s.knights
            && s.knights[id1].gen < U64_MAX
            && st == Mint(s, who, Squire(s, squireName, id1, id2, random)))
  {
  }
}

=== FILE: registry_spec.dfy ===
/** The knights pallet as a state machine over its storage: one function per
    helper and per dispatchable, each returning the outcome together with the
    storage the call leaves behind. */
module RegistrySpec {
  import opened KnightTypes
  import opened OwnedList
  import opened Breeding

  /** The pallet's storage items: `KnightCount`, `LatestKnightId`, `Knights`,
      `KnightToOwner`, `OwnerToKnights` and `OwnerToKnightCount`. */
  datatype Storage = Storage(
    knightCount: nat,
    latestKnightId: KnightIndex,
    knights: map<KnightIndex, Knight>,
    knightToOwner: map<KnightIndex, AccountId>,
    ownerToKnights: map<AccountId, seq<KnightIndex>>,
    ownerToKnightCount: map<AccountId, nat>)
  {
    /** `OwnerToKnights::get`: a `ValueQuery`, so an absent owner reads as []. */
    function KnightsOf(a: AccountId): seq<KnightIndex>
    {
      if a in ownerToKnights then ownerToKnights[a] else []
    }

    /** `OwnerToKnightCount::get`: a `ValueQuery`, so an absent owner reads as 0. */
    function CountOf(a: AccountId): nat
    {
      if a in ownerToKnightCount then ownerToKnightCount[a] else 0
    }
  }

  /** Storage before any call: every item at its default. */
  function Empty(): Storage
  {
    Storage(0, 0, map[], map[], map[], map[])
  }

  /** What a call returns and the storage it leaves. */
  datatype Step = Step(outcome: Outcome, post: Storage)

  /** The counters fit their Rust types. */
  ghost predicate Bounded(s: Storage)
  {
    s.knightCount <= U64_MAX && s.latestKnightId <= KNIGHT_INDEX_MAX
  }

  /** Every record sits under its own id, no id exceeds `LatestKnightId` (ids
      are issued in increasing order and never reused), generations are u64,
      and `KnightCount` counts the records. */
  ghost predicate RecordsKeyed(s: Storage)
  {
    && s.knightCount == |s.knights.Keys|
    && (forall id :: id in s.knights ==>
          s.knights[id].id == id && id <= s.latestKnightId && s.knights[id].gen <= U64_MAX)
  }

  /** Forward and reverse index agree: every knight has exactly one owner, and
      an id is in an owner's list exactly when the forward map names that owner. */
  ghost predicate IndexConsistent(s: Storage)
  {
    && s.knightToOwner.Keys == s.knights.Keys
    && (forall a :: a in s.ownerToKnights ==> NoDuplicates(s.ownerToKnights[a]))
    && (forall a, id :: a in s.ownerToKnights && id in s.ownerToKnights[a] ==>
          id in s.knightToOwner && s.knightToOwner[id] == a)
    && (forall id :: id in s.knightToOwner ==> id in s.KnightsOf(s.knightToOwner[id]))
  }

  /** Each owner's count is the length of that owner's list. */
  ghost predicate CountsMatch(s: Storage)
  {
    forall a :: s.CountOf(a) == |s.KnightsOf(a)|
  }

  ghost predicate Inv(s: Storage)
  {
    Bounded(s) && RecordsKeyed(s) && IndexConsistent(s) && CountsMatch(s)
  }

  /** Every owner's list is ascending, as `binary_search_by` presumes. */
  ghost predicate AllSorted(s: Storage)
  {
    forall a :: a in s.ownerToKnights ==> Sorted(s.ownerToKnights[a])
  }

  /** `_mint`, as written: the writes to `KnightCount`, `Knights`,
      `KnightToOwner`, `OwnerToKnights` and `LatestKnightId` happen before the
      owner's count is checked, so a late overflow leaves them behind. */
  function Mint(s: Storage, owner: AccountId, knight: Knight): (r: Step)
    ensures r.outcome.Ok? || r.outcome == Err(KnightCountOverflow) || r.outcome == Err(OwnerToKnightCountOverflow)
    ensures r.outcome == Err(KnightCountOverflow) <==> s.knightCount + 1 > U64_MAX
    ensures r.outcome == Err(KnightCountOverflow) ==> r.post == s
    ensures r.outcome.Ok? ==>
              && r.post.knightCount == s.knightCount + 1
              && |r.post.KnightsOf(owner)| == |s.KnightsOf(owner)| + 1
              && r.post.CountOf(owner) == s.CountOf(owner) + 1
  {
    match CheckedAdd(s.knightCount, 1, U64_MAX)
    case None => Step(Err(KnightCountOverflow), s)
    case Some(newCount) =>
      var s1 := s.(knightCount := newCount,
                   knights := s.knights[knight.id := knight],
                   knightToOwner := s.knightToOwner[knight.id := owner],
                   ownerToKnights := s.ownerToKnights[owner := s.KnightsOf(owner) + [knight.id]],
                   latestKnightId := knight.id);
      match CheckedAdd(s1.CountOf(owner), 1, U64_MAX)
      case None => Step(Err(OwnerToKnightCountOverflow), s1)
      case Some(ownerCount) =>
        Step(Ok, s1.(ownerToKnightCount := s1.ownerToKnightCount[owner := ownerCount]))
  }

  /** `_transfer_knight`, as written: the duplicate check comes first; then the
      forward map is rewritten, `id` is looked up in `from`'s list by binary
      search (a miss panics) and removed, appended to `to`'s list, and only
      then are the two counts checked and written. */
  function TransferInternal(s: Storage, id: KnightIndex, from: AccountId, to: AccountId): (r: Step)
    ensures r.post.knights == s.knights && r.post.knightCount == s.knightCount
    ensures r.post.latestKnightId == s.latestKnightId
    ensures r.outcome == Err(KnightAlreadyExists) <==> id in s.KnightsOf(to)
    ensures r.outcome == Err(KnightAlreadyExists) ==> r.post == s
    ensures r.outcome != Err(KnightAlreadyExists) ==> r.post.knightToOwner == s.knightToOwner[id := to]
    ensures r.outcome.Ok? ==>
              && from != to
              && |r.post.KnightsOf(from)| + 1 == |s.KnightsOf(from)|
              && r.post.CountOf(from) + 1 == s.CountOf(from)
              && |r.post.KnightsOf(to)| == |s.KnightsOf(to)| + 1
              && r.post.CountOf(to) == s.CountOf(to) + 1
  {
    if id in s.KnightsOf(to) then Step(Err(KnightAlreadyExists), s)
    else
      var s1 := s.(knightToOwner := s.knightToOwner[id := to]);
      match BinarySearch(s1.KnightsOf(from), id)
      case None => Step(Panic(KnightMissingFromOwnerList), s1)
      case Some(pos) =>
        var s2 := s1.(ownerToKnights := s1.ownerToKnights[from := RemoveAt(s1.KnightsOf(from), pos)]);
        var s3 := s2.(ownerToKnights := s2.ownerToKnights[to := s2.KnightsOf(to) + [id]]);
        match CheckedSub(s3.CountOf(from), 1)
        case None => Step(Err(OwnerToKnightCountUnderflow), s3)
        case Some(fromCount) =>
          var s4 := s3.(ownerToKnightCount := s3.ownerToKnightCount[from := fromCount]);
          match CheckedAdd(s4.CountOf(to), 1, U64_MAX)
          case None => Step(Err(OwnerToKnightCountOverflow), s4)
          case Some(toCount) =>
            Step(Ok, s4.(ownerToKnightCount := s4.ownerToKnightCount[to := toCount]))
  }

  /** The host's transactional dispatch: a call that does not succeed leaves
      the storage as it found it. */
  function Atomic(pre: Storage, st: Step): (r: Step)
    ensures r.outcome == st.outcome
    ensures r.outcome.Ok? ==> r.post == st.post
    ensures !r.outcome.Ok? ==> r.post == pre
  {
    if st.outcome.Ok? then st else Step(st.outcome, pre)
  }

  /** `.expect("Transfers Knight")`: an error from `_transfer_knight` becomes a panic. */
  function Expect(o: Outcome): (r: Outcome)
    ensures !r.Err?
    ensures r.Ok? <==> o.Ok?
    ensures o.Err? ==> r == Panic(TransfersKnight(o.error))
    ensures o.Panic? ==> r == o
  {
    match o
    case Err(e) => Panic(TransfersKnight(e))
    case _ => o
  }

  /** `?` on `_mint`'s `Result<(), &'static str>` inside a call: the pallet
      error has already become its name, so the call reports it as
      `DispatchError::Other` rather than as the pallet's own error. */
  function StrError(o: Outcome): (r: Outcome)
    ensures !r.Err?
    ensures r.Ok? <==> o.Ok?
    ensures o.Err? ==> r == Other(o.error)
    ensures !o.Err? ==> r == o
  {
    match o
    case Err(e) => Other(e)
    case _ => o
  }

  /** `Self::_mint(..)?` in a call, with the host's rollback. */
  function MintCall(s: Storage, owner: AccountId, knight: Knight): (r: Step)
    ensures r.outcome == StrError(Mint(s, owner, knight).outcome)
    ensures r.outcome.Ok? ==> r == Mint(s, owner, knight)
    ensures !r.outcome.Ok? ==> r.post == s
  {
    var m := Mint(s, owner, knight);
    Atomic(s, Step(StrError(m.outcome), m.post))
  }

  /** `transfer_knight` called by `who`. */
  function TransferKnight(s: Storage, who: AccountId, id: KnightIndex, to: AccountId): (r: Step)
    ensures !r.outcome.Ok? ==> r.post == s
    ensures r.outcome == Err(KnightNotFound) <==> id !in s.knightToOwner
    ensures r.outcome.Ok? ==>
              && id in s.knightToOwner && s.knightToOwner[id] == who && who != to
              && r.post.knights == s.knights
              && r.post.knightToOwner == s.knightToOwner[id := to]
  {
    if id !in s.knightToOwner then Step(Err(KnightNotFound), s)
    else if s.knightToOwner[id] != who then Step(Err(NotRightfulOwner), s)
    else
      var st := TransferInternal(s, id, who, to);
      Atomic(s, Step(Expect(st.outcome), st.post))
  }

  /** `set_price` called by `who`. */
  function SetPrice(s: Storage, who: AccountId, id: KnightIndex, price: Balance): (r: Step)
    ensures !r.outcome.Panic?
    ensures !r.outcome.Ok? ==> r.post == s
    ensures r.outcome.Ok? ==>
              && id in s.knightToOwner && s.knightToOwner[id] == who
              && id in r.post.knights && r.post.knights[id].price == price
              && r.post.knightToOwner == s.knightToOwner
              && r.post.ownerToKnights == s.ownerToKnights
              && r.post.ownerToKnightCount == s.ownerToKnightCount
  {
    if id !in s.knights then Step(Err(KnightNotFound), s)
    else if id !in s.knightToOwner then Step(Err(KnightNotFound), s)
    else if s.knightToOwner[id] != who then Step(Err(NotRightfulOwner), s)
    else Step(Ok, s.(knights := s.knights[id := s.knights[id].(price := price)]))
  }

  /** `buy_knight` called by `buyer`; `currency(from, to, amount)` is the
      balances pallet's transfer and reports whether it went through. */
  function BuyKnight(s: Storage, buyer: AccountId, id: KnightIndex,
                     currency: (AccountId, AccountId, Balance) -> bool): (r: Step)
    ensures !r.outcome.Ok? ==> r.post == s
    ensures r.outcome == Other(NotForSale) <==> id in s.knights && s.knights[id].price == 0
    ensures r.outcome.Ok? ==>
              && id in s.knights && id in s.knightToOwner && s.knightToOwner[id] != buyer
              && currency(buyer, s.knightToOwner[id], s.knights[id].price)
              && id in r.post.knights && r.post.knights[id].price == 0
              && r.post.knightToOwner == s.knightToOwner[id := buyer]
  {
    if id !in s.knights then Step(Err(KnightNotFound), s)
    else
      var knight := s.knights[id];
      if knight.price == 0 then Step(Other(NotForSale), s)
      else if id !in s.knightToOwner then Step(Err(KnightNotFound), s)
      else
        var owner := s.knightToOwner[id];
        if owner == buyer then Step(Other(AlreadyOwnsKnight), s)
        else if !currency(buyer, owner, knight.price) then Step(Err(PaymentFailed), s)
        else
          var st := TransferInternal(s, id, owner, buyer);
          var o := Expect(st.outcome);
          if !o.Ok? then Step(o, s)
          else Step(Ok, st.post.(knights := st.post.knights[id := knight.(price := 0)]))
  }

  /** `create_knight` called by `who`; `dnaOf(newCount, who)` stands for the
      blake2-128 hash of the encoded pair. */
  function CreateKnight(s: Storage, who: AccountId, name: seq<Byte>,
                        dnaOf: (nat, AccountId) -> Dna): (r: Step)
    ensures !r.outcome.Panic?
    ensures !r.outcome.Ok? ==> r.post == s
    ensures r.outcome.Ok? ==>
              && s.latestKnightId + 1 !in s.knights
              && r.post.latestKnightId == s.latestKnightId + 1
              && r.post.knightCount == s.knightCount + 1
              && s.latestKnightId + 1 in r.post.knights
              && r.post.knights[s.latestKnightId + 1].gen == 1
              && r.post.knightToOwner == s.knightToOwner[s.latestKnightId + 1 := who]
    ensures r.outcome.Other? ==>
              r.outcome == StrError(Mint(s, who, Knight(s.latestKnightId + 1, dnaOf(s.knightCount + 1, who),
                                                         name, 0, 0, 1)).outcome)
  {
    match CheckedAdd(s.knightCount, 1, U64_MAX)
    case None => Step(Err(KnightCountOverflow), s)
    case Some(newCount) =>
      match CheckedAdd(s.latestKnightId, 1, KNIGHT_INDEX_MAX)
      case None => Step(Err(KnightIdOverflow), s)
      case Some(next) =>
        if next in s.knights then Step(Err(KnightAlreadyExists), s)
        else MintCall(s, who, Knight(next, dnaOf(newCount, who), name, 0, 0, 1))
  }

  /** `knight_squire` called by `who`; `random(seed)` is the randomness
      source, seeded with parent 1's name followed by parent 2's. */
  function KnightSquire(s: Storage, who: AccountId, squireName: seq<Byte>,
                        id1: KnightIndex, id2: KnightIndex,
                        random: seq<Byte> -> Hash256): (r: Step)
    ensures !r.outcome.Panic?
    ensures !r.outcome.Ok? ==> r.post == s
    ensures r.outcome.Ok? ==>
              && id1 in s.knights && id2 in s.knights
              && s.latestKnightId + 1 !in s.knights
              && r.post.latestKnightId == s.latestKnightId + 1
              && r.post.knights == s.knights[s.latestKnightId + 1 := Squire(s, squireName, id1, id2, random)]
              && r.post.knightToOwner == s.knightToOwner[s.latestKnightId + 1 := who]
    ensures r.outcome.Other? ==>
              && id1 in s.knights && id2 in s.knights
              && r.outcome == StrError(Mint(s, who, Squire(s, squireName, id1, id2, random)).outcome)
  {
    match CheckedAdd(s.latestKnightId, 1, KNIGHT_INDEX_MAX)
    case None => Step(Err(KnightIdOverflow), s)
    case Some(next) =>
      if next in s.knights then Step(Err(KnightAlreadyExists), s)
      else if id1 !in s.knights || id2 !in s.knights then Step(Err(KnightNotFound), s)
      else
        match CheckedAdd(s.knights[id1].gen, 1, U64_MAX)
        case None => Step(Err(KnightGenOverflow), s)
        case Some(_) => MintCall(s, who, Squire(s, squireName, id1, id2, random))
  }

  /** The record `knight_squire` mints for the parents `id1` and `id2`: the
      next id, each DNA byte taken from one parent by the random hash seeded
      with the joined names, the squire's name, no price or wealth, and the
      generation after parent 1's. */
  function Squire(s: Storage, squireName: seq<Byte>, id1: KnightIndex, id2: KnightIndex,
                  random: seq<Byte> -> Hash256): (child: Knight)
    requires id1 in s.knights && id2 in s.knights
    ensures child.id == s.latestKnightId + 1 && child.name == squireName
    ensures child.gen == s.knights[id1].gen + 1
    ensures forall i :: 0 <= i < DNA_LEN ==>
              child.dna[i] == s.knights[id1].dna[i] || child.dna[i] == s.knights[id2].dna[i]
  {
    var k1, k2 := s.knights[id1], s.knights[id2];
    Knight(s.latestKnightId + 1, Crossed(k1.dna, k2.dna, random(k1.name + k2.name)), squireName, 0, 0, k1.gen + 1)
  }
}

=== FILE: scenarios.dfy ===
/** Concrete runs of the pallet from fresh storage, following the
    pallet's own test cases, and the run in which a rightful owner's
    transfer panics because an earlier transfer left that owner's list out
    of order. The hash and the currency are left as parameters: nothing
    below depends on their values beyond what each lemma requires. */
module Scenarios {
  import opened KnightTypes
  import opened OwnedList
  import opened RegistrySpec
  import opened RegistryProofs

  /** Three knights created by one account get ids 1, 2 and 3, in that order
      in the account's list, each under its own name, with DNA hashed from
      counts 1, 2 and 3. */
  lemma ThreeCreatesInOrder(who: AccountId, n1: seq<Byte>, n2: seq<Byte>, n3: seq<Byte>,
                            dnaOf: (nat, AccountId) -> Dna)
    ensures var c1 := CreateKnight(Empty(), who, n1, dnaOf);
      var c2 := CreateKnight(c1.post, who, n2, dnaOf);
      var c3 := CreateKnight(c2.post, who, n3, dnaOf);
      && c1.outcome.Ok? && c2.outcome.Ok? && c3.outcome.Ok?
      && c3.post.knightCount == 3
      && c3.post.KnightsOf(who) == [1, 2, 3]
      && c3.post.CountOf(who) == 3
      && Owns(c3.post, who, 1) && Owns(c3.post, who, 2) && Owns(c3.post, who, 3)
      && c3.post.knights[1] == Knight(1, dnaOf(1, who), n1, 0, 0, 1)
      && c3.post.knights[2] == Knight(2, dnaOf(2, who), n2, 0, 0, 1)
      && c3.post.knights[3] == Knight(3, dnaOf(3, who), n3, 0, 0, 1)
  {
    var k1 := Knight(1, dnaOf(1, who), n1, 0, 0, 1);
    var k2 := Knight(2, dnaOf(2, who), n2, 0, 0, 1);
    FirstCreate(who, n1, dnaOf);
    SecondCreate(who, k1, n2, dnaOf);
    ThirdCreate(who, k1, k2, n3, dnaOf);
  }

  /** The first knight ever created gets id 1 and is its creator's only one. */
  lemma FirstCreate(who: AccountId, name: seq<Byte>, dnaOf: (nat, AccountId) -> Dna)
    ensures CreateKnight(Empty(), who, name, dnaOf) ==
      Step(Ok, Storage(1, 1, map[1 := Knight(1, dnaOf(1, who), name, 0, 0, 1)], map[1 := who],
                       map[who := [1]], map[who := 1]))
  {
    assert [] + [1] == [1];
  }

  lemma SecondCreate(who: AccountId, k1: Knight, name: seq<Byte>, dnaOf: (nat, AccountId) -> Dna)
    ensures var k2 := Knight(2, dnaOf(2, who), name, 0, 0, 1);
      CreateKnight(Storage(1, 1, map[1 := k1], map[1 := who], map[who := [1]], map[who := 1]), who, name, dnaOf) ==
        Step(Ok, Storage(2, 2, map[1 := k1, 2 := k2], map[1 := who, 2 := who], map[who := [1, 2]], map[who := 2]))
  {
    assert [1] + [2] == [1, 2];
  }

  lemma ThirdCreate(who: AccountId, k1: Knight, k2: Knight, name: seq<Byte>, dnaOf: (nat, AccountId) -> Dna)
    ensures var k3 := Knight(3, dnaOf(3, who), name, 0, 0, 1);
      CreateKnight(Storage(2, 2, map[1 := k1, 2 := k2], map[1 := who, 2 := who], map[who := [1, 2]], map[who := 2]),
                   who, name, dnaOf) ==
        Step(Ok, Storage(3, 3, map[1 := k1, 2 := k2, 3 := k3], map[1 := who, 2 := who, 3 := who],
                         map[who := [1, 2, 3]], map[who := 3]))
  {
    assert [1, 2] + [3] == [1, 2, 3];
  }

  /** The owner prices knight 1 at 20 and a second account, whose payment
      goes through, buys it: the buyer owns it and its price is back at 0. */
  lemma BuyAfterPricing(seller: AccountId, buyer: AccountId, name: seq<Byte>,
                        dnaOf: (nat, AccountId) -> Dna, currency: (AccountId, AccountId, Balance) -> bool)
    requires seller != buyer && currency(buyer, seller, 20)
    ensures var c := CreateKnight(Empty(), seller, name, dnaOf);
      var p := SetPrice(c.post, seller, 1, 20);
      var b := BuyKnight(p.post, buyer, 1, currency);
      && c.outcome.Ok? && p.outcome.Ok? && b.outcome.Ok?
      && b.post.knightToOwner[1] == buyer
      && b.post.knights[1].price == 0
      && b.post.KnightsOf(buyer) == [1]
      && 1 !in b.post.KnightsOf(seller)
  {
    var k := Knight(1, dnaOf(1, seller), name, 0, 0, 1);
    FirstCreate(seller, name, dnaOf);
    var s1 := Storage(1, 1, map[1 := k], map[1 := seller], map[seller := [1]], map[seller := 1]);
    var s2 := s1.(knights := map[1 := k.(price := 20)]);
    assert SetPrice(s1, seller, 1, 20) == Step(Ok, s2);
    BuySole(seller, buyer, k, currency);
  }

  /** The only knight, priced at 20, bought by another account. */
  lemma BuySole(seller: AccountId, buyer: AccountId, k: Knight, currency: (AccountId, AccountId, Balance) -> bool)
    requires seller != buyer && currency(buyer, seller, 20)
    ensures BuyKnight(Storage(1, 1, map[1 := k.(price := 20)], map[1 := seller], map[seller := [1]], map[seller := 1]),
                      buyer, 1, currency) ==
      Step(Ok, Storage(1, 1, map[1 := k.(price := 0)], map[1 := buyer], map[seller := [], buyer := [1]],
                       map[seller := 0, buyer := 1]))
  {
    var s2 := Storage(1, 1, map[1 := k.(price := 20)], map[1 := seller], map[seller := [1]], map[seller := 1]);
    HandOverSole(seller, buyer, s2);
    BuyKnightSteps(s2, buyer, 1, currency);
  }

  lemma HandOverSole(seller: AccountId, buyer: AccountId, s: Storage)
    requires seller != buyer
    requires s.knightToOwner == map[1 := seller] && s.ownerToKnights == map[seller := [1]] &&
             s.ownerToKnightCount == map[seller := 1]
    ensures TransferInternal(s, 1, seller, buyer) ==
      Step(Ok, s.(knightToOwner := map[1 := buyer], ownerToKnights := map[seller := [], buyer := [1]],
                  ownerToKnightCount := map[seller := 0, buyer := 1]))
  {
    SoleFound(seller, buyer, s);
    SoleMoved(seller, buyer, s, TransferInternal(s, 1, seller, buyer).post);
  }

  lemma SoleFound(seller: AccountId, buyer: AccountId, s: Storage)
    requires seller != buyer && s.ownerToKnights == map[seller := [1]] && s.ownerToKnightCount == map[seller := 1]
    ensures TransferInternal(s, 1, seller, buyer).outcome.Ok?
    ensures Moved(s, TransferInternal(s, 1, seller, buyer).post, 1, seller, buyer, 0)
  {
    assert s.KnightsOf(seller) == [1] && s.KnightsOf(buyer) == [];
    assert BinarySearch([1], 1) == Some(0);
    TransferInternalFound(s, 1, seller, buyer, 0);
  }

  lemma SoleMoved(seller: AccountId, buyer: AccountId, s: Storage, p: Storage)
    requires seller != buyer
    requires s.knightToOwner == map[1 := seller] && s.ownerToKnights == map[seller := [1]] &&
             s.ownerToKnightCount == map[seller := 1]
    requires Moved(s, p, 1, seller, buyer, 0)
    ensures p == s.(knightToOwner := map[1 := buyer], ownerToKnights := map[seller := [], buyer := [1]],
                    ownerToKnightCount := map[seller := 0, buyer := 1])
  {
    assert RemoveAt([1], 0) == [];
    assert [] + [1] == [1];
  }

  /** When the payment fails the purchase reports it and changes nothing. */
  lemma BuyWithoutFunds(seller: AccountId, buyer: AccountId, name: seq<Byte>,
                        dnaOf: (nat, AccountId) -> Dna, currency: (AccountId, AccountId, Balance) -> bool)
    requires seller != buyer && !currency(buyer, seller, 10)
    ensures var c := CreateKnight(Empty(), seller, name, dnaOf);
      var p := SetPrice(c.post, seller, 1, 10);
      var b := BuyKnight(p.post, buyer, 1, currency);
      && b.outcome == Err(PaymentFailed)
      && b.post == p.post
  {
    FirstCreate(seller, name, dnaOf);
  }

  /** Only the owner may price or transfer a knight, and a knight that was
      never created cannot be transferred. */
  lemma CallerChecks(owner: AccountId, other: AccountId, name: seq<Byte>, dnaOf: (nat, AccountId) -> Dna)
    requires owner != other
    ensures var c := CreateKnight(Empty(), owner, name, dnaOf);
      && SetPrice(c.post, other, 1, 200) == Step(Err(NotRightfulOwner), c.post)
      && TransferKnight(c.post, other, 1, other) == Step(Err(NotRightfulOwner), c.post)
      && TransferKnight(Empty(), owner, 1, other) == Step(Err(KnightNotFound), Empty())
  {
    FirstCreate(owner, name, dnaOf);
  }

  /** An owner of two knights hands knight 1 to another account: each then
      lists one knight and the receiver's count is 1. */
  lemma TransferOneOfTwo(owner: AccountId, to: AccountId, n1: seq<Byte>, n2: seq<Byte>,
                         dnaOf: (nat, AccountId) -> Dna)
    requires owner != to
    ensures var c1 := CreateKnight(Empty(), owner, n1, dnaOf);
      var c2 := CreateKnight(c1.post, owner, n2, dnaOf);
      var t := TransferKnight(c2.post, owner, 1, to);
      && t.outcome.Ok?
      && t.post.knightToOwner[1] == to
      && t.post.KnightsOf(owner) == [2] && t.post.KnightsOf(to) == [1]
      && t.post.CountOf(owner) == 1 && t.post.CountOf(to) == 1
  {
    var k1 := Knight(1, dnaOf(1, owner), n1, 0, 0, 1);
    var k2 := Knight(2, dnaOf(2, owner), n2, 0, 0, 1);
    var s2 := Storage(2, 2, map[1 := k1, 2 := k2], map[1 := owner, 2 := owner], map[owner := [1, 2]], map[owner := 2]);
    TwoCreates(owner, owner, n1, n2, dnaOf);
    assert CreateKnight(CreateKnight(Empty(), owner, n1, dnaOf).post, owner, n2, dnaOf).post == s2;
    TransferFirstOfTwo(owner, to, k1, k2);
  }

  /** Two creates from fresh storage, the first by `b`, the second by `a`. */
  lemma TwoCreates(a: AccountId, b: AccountId, n1: seq<Byte>, n2: seq<Byte>, dnaOf: (nat, AccountId) -> Dna)
    ensures var k1 := Knight(1, dnaOf(1, b), n1, 0, 0, 1);
      var k2 := Knight(2, dnaOf(2, a), n2, 0, 0, 1);
      var c1 := CreateKnight(Empty(), b, n1, dnaOf);
      var c2 := CreateKnight(c1.post, a, n2, dnaOf);
      && c1 == Step(Ok, Storage(1, 1, map[1 := k1], map[1 := b], map[b := [1]], map[b := 1]))
      && c2.outcome == Ok
      && c2.post.knightCount == 2 && c2.post.latestKnightId == 2
      && c2.post.knights == map[1 := k1, 2 := k2]
      && c2.post.knightToOwner == map[1 := b, 2 := a]
      && (a != b ==> c2.post.ownerToKnights == map[b := [1], a := [2]] &&
                     c2.post.ownerToKnightCount == map[b := 1, a := 1])
      && (a == b ==> c2.post.ownerToKnights == map[b := [1, 2]] &&
                     c2.post.ownerToKnightCount == map[b := 2])
  {
    FirstCreate(b, n1, dnaOf);
    assert [] + [2] == [2];
    assert [1] + [2] == [1, 2];
  }

  lemma TransferFirstOfTwo(owner: AccountId, to: AccountId, k1: Knight, k2: Knight)
    requires owner != to
    ensures var s2 := Storage(2, 2, map[1 := k1, 2 := k2], map[1 := owner, 2 := owner], map[owner := [1, 2]], map[owner := 2]);
      TransferInternal(s2, 1, owner, to) ==
        Step(Ok, Storage(2, 2, map[1 := k1, 2 := k2], map[1 := to, 2 := owner], map[owner := [2], to := [1]],
                         map[owner := 1, to := 1]))
  {
    var s2 := Storage(2, 2, map[1 := k1, 2 := k2], map[1 := owner, 2 := owner], map[owner := [1, 2]], map[owner := 2]);
    FirstOfTwoFound(owner, to, s2);
    FirstOfTwoMoved(owner, to, k1, k2, TransferInternal(s2, 1, owner, to).post);
  }

  lemma FirstOfTwoFound(owner: AccountId, to: AccountId, s2: Storage)
    requires owner != to && s2.ownerToKnights == map[owner := [1, 2]] && s2.ownerToKnightCount == map[owner := 2]
    ensures TransferInternal(s2, 1, owner, to).outcome.Ok?
    ensures Moved(s2, TransferInternal(s2, 1, owner, to).post, 1, owner, to, 0)
  {
    assert s2.KnightsOf(owner) == [1, 2] && s2.KnightsOf(to) == [];
    assert SearchBetween([1, 2], 1, 0, 2) == SearchBetween([1, 2], 1, 0, 1) == Some(0);
    TransferInternalFound(s2, 1, owner, to, 0);
  }

  lemma FirstOfTwoMoved(owner: AccountId, to: AccountId, k1: Knight, k2: Knight, p: Storage)
    requires owner != to
    requires Moved(Storage(2, 2, map[1 := k1, 2 := k2], map[1 := owner, 2 := owner], map[owner := [1, 2]], map[owner := 2]),
                   p, 1, owner, to, 0)
    ensures p == Storage(2, 2, map[1 := k1, 2 := k2], map[1 := to, 2 := owner], map[owner := [2], to := [1]],
                         map[owner := 1, to := 1])
  {
    assert RemoveAt([1, 2], 0) == [2];
    assert [] + [1] == [1];
  }

  /** Account `b` creates knight 1, account `a` creates knight 2, and `b`
      hands knight 1 to `a`, whose list becomes [2, 1]. Although `a` owns
      knight 2, transferring it panics: the binary search over the unsorted
      list misses it. The storage stays consistent; only the order that the
      search presumes is lost. */
  lemma OutOfOrderTransferPanics(a: AccountId, b: AccountId, n1: seq<Byte>, n2: seq<Byte>,
                                 dnaOf: (nat, AccountId) -> Dna)
    requires a != b
    ensures var c1 := CreateKnight(Empty(), b, n1, dnaOf);
      var c2 := CreateKnight(c1.post, a, n2, dnaOf);
      var t1 := TransferKnight(c2.post, b, 1, a);
      var t2 := TransferKnight(t1.post, a, 2, b);
      && c1.outcome.Ok? && c2.outcome.Ok? && t1.outcome.Ok?
      && Inv(t1.post)
      && t1.post.KnightsOf(a) == [2, 1]
      && !Sorted(t1.post.KnightsOf(a))
      && Owns(t1.post, a, 2)
      && t2.outcome == Panic(KnightMissingFromOwnerList)
      && t2.post == t1.post
  {
    var k1 := Knight(1, dnaOf(1, b), n1, 0, 0, 1);
    var k2 := Knight(2, dnaOf(2, a), n2, 0, 0, 1);
    var s2 := Storage(2, 2, map[1 := k1, 2 := k2], map[1 := b, 2 := a], map[b := [1], a := [2]], map[b := 1, a := 1]);
    TwoCreates(a, b, n1, n2, dnaOf);
    assert CreateKnight(CreateKnight(Empty(), b, n1, dnaOf).post, a, n2, dnaOf).post == s2;
    HandOverLower(a, b, k1, k2);
    var s3 := Storage(2, 2, map[1 := k1, 2 := k2], map[1 := a, 2 := a], map[b := [], a := [2, 1]], map[b := 0, a := 2]);
    UnorderedOwnerPanics(a, b, s3);
  }

  /** `b` hands knight 1 to `a`, who holds knight 2. */
  lemma HandOverLower(a: AccountId, b: AccountId, k1: Knight, k2: Knight)
    requires a != b
    ensures var s2 := Storage(2, 2, map[1 := k1, 2 := k2], map[1 := b, 2 := a], map[b := [1], a := [2]], map[b := 1, a := 1]);
      TransferInternal(s2, 1, b, a) ==
        Step(Ok, Storage(2, 2, map[1 := k1, 2 := k2], map[1 := a, 2 := a], map[b := [], a := [2, 1]], map[b := 0, a := 2]))
  {
    var s2 := Storage(2, 2, map[1 := k1, 2 := k2], map[1 := b, 2 := a], map[b := [1], a := [2]], map[b := 1, a := 1]);
    HandOverFound(a, b, s2);
    HandOverMoved(a, b, k1, k2, TransferInternal(s2, 1, b, a).post);
  }

  lemma HandOverFound(a: AccountId, b: AccountId, s2: Storage)
    requires a != b && s2.ownerToKnights == map[b := [1], a := [2]] && s2.ownerToKnightCount == map[b := 1, a := 1]
    ensures TransferInternal(s2, 1, b, a).outcome.Ok?
    ensures Moved(s2, TransferInternal(s2, 1, b, a).post, 1, b, a, 0)
  {
    assert s2.KnightsOf(b) == [1] && s2.KnightsOf(a) == [2];
    assert BinarySearch([1], 1) == Some(0);
    TransferInternalFound(s2, 1, b, a, 0);
  }

  lemma HandOverMoved(a: AccountId, b: AccountId, k1: Knight, k2: Knight, p: Storage)
    requires a != b
    requires Moved(Storage(2, 2, map[1 := k1, 2 := k2], map[1 := b, 2 := a], map[b := [1], a := [2]], map[b := 1, a := 1]),
                   p, 1, b, a, 0)
    ensures p == Storage(2, 2, map[1 := k1, 2 := k2], map[1 := a, 2 := a], map[b := [], a := [2, 1]], map[b := 0, a := 2])
  {
    assert RemoveAt([1], 0) == [];
    assert [2] + [1] == [2, 1];
  }

  /** The storage after the hand-over is consistent, `a` owns knight 2, and
      yet `a`'s transfer of knight 2 panics and is rolled back. */
  lemma UnorderedOwnerPanics(a: AccountId, b: AccountId, s3: Storage)
    requires a != b
    requires s3.knightCount == 2 && s3.latestKnightId == 2 && s3.knights.Keys == {1, 2}
    requires s3.knights[1].id == 1 && s3.knights[2].id == 2 && s3.knights[1].gen == 1 && s3.knights[2].gen == 1
    requires s3.knightToOwner == map[1 := a, 2 := a]
    requires s3.ownerToKnights == map[b := [], a := [2, 1]] && s3.ownerToKnightCount == map[b := 0, a := 2]
    ensures Inv(s3) && !Sorted(s3.KnightsOf(a)) && Owns(s3, a, 2)
    ensures TransferKnight(s3, a, 2, b) == Step(Panic(KnightMissingFromOwnerList), s3)
  {
    HandedOverConsistent(a, b, s3);
    assert s3.KnightsOf(a) == [2, 1] && s3.KnightsOf(b) == [];
    UnsortedSearchMisses();
    assert TransferInternal(s3, 2, a, b).outcome == Panic(KnightMissingFromOwnerList);
  }

  lemma HandedOverConsistent(a: AccountId, b: AccountId, s3: Storage)
    requires a != b
    requires s3.knightCount == 2 && s3.latestKnightId == 2 && s3.knights.Keys == {1, 2}
    requires s3.knights[1].id == 1 && s3.knights[2].id == 2 && s3.knights[1].gen == 1 && s3.knights[2].gen == 1
    requires s3.knightToOwner == map[1 := a, 2 := a]
    requires s3.ownerToKnights == map[b := [], a := [2, 1]] && s3.ownerToKnightCount == map[b := 0, a := 2]
    ensures Inv(s3)
  {
    HandedOverRecords(s3);
    HandedOverIndex(a, b, s3);
    HandedOverCounts(a, b, s3);
  }

  lemma HandedOverRecords(s3: Storage)
    requires s3.knightCount == 2 && s3.latestKnightId == 2 && s3.knights.Keys == {1, 2}
    requires s3.knights[1].id == 1 && s3.knights[2].id == 2 && s3.knights[1].gen == 1 && s3.knights[2].gen == 1
    ensures Bounded(s3) && RecordsKeyed(s3)
  {
    assert |s3.knights.Keys| == 2;
    forall id | id in s3.knights ensures s3.knights[id].id == id && id <= 2 && s3.knights[id].gen <= U64_MAX {
      assert id == 1 || id == 2;
    }
  }

  lemma HandedOverIndex(a: AccountId, b: AccountId, s3: Storage)
    requires a != b && s3.knights.Keys == {1, 2}
    requires s3.knightToOwner == map[1 := a, 2 := a] && s3.ownerToKnights == map[b := [], a := [2, 1]]
    ensures IndexConsistent(s3)
  {
    assert s3.KnightsOf(a) == [2, 1];
    forall x | x in s3.ownerToKnights ensures NoDuplicates(s3.ownerToKnights[x]) {
      assert x == a || x == b;
    }
    forall x, id | x in s3.ownerToKnights && id in s3.ownerToKnights[x]
      ensures id in s3.knightToOwner && s3.knightToOwner[id] == x
    {
      assert x == a && (id == 1 || id == 2);
    }
  }

  lemma HandedOverCounts(a: AccountId, b: AccountId, s3: Storage)
    requires a != b
    requires s3.ownerToKnights == map[b := [], a := [2, 1]] && s3.ownerToKnightCount == map[b := 0, a := 2]
    ensures CountsMatch(s3)
  {
    forall x ensures s3.CountOf(x) == |s3.KnightsOf(x)| {
      if x != a && x != b {
        assert x !in s3.ownerToKnights && x !in s3.ownerToKnightCount;
      }
    }
  }
}
